=== FILE: README.md ===
# Daily digest: curation, rendering and run log

A Dafny model of the core of `digest.py`, a script that fetches a handful of
newsletters and feeds each morning and has a language model score every item
against a user profile. It keeps the relevant items per source and summarises
them. It then renders the summaries to HTML and writes a per-run log.

The model covers these parts of the script:

- `curate` (digest.py:308-414):
  - normalising each source's raw text into an item list;
  - the stop when there is nothing to curate;
  - stripping the code fence from the model's reply;
  - the per-source filter, stable descending sort and cap;
  - the curation log;
  - the fallback that keeps every non-empty source when scoring fails.
- The block walk of `md_to_html` (digest.py:539-558), with its one `in_list` flag.
- The highlights `build_editorial_intro` gathers (digest.py:431-450).
- The tier split of `summarise_section` (digest.py:459-490).
- The fetch-log bookkeeping of `fetch_all_raw._record` (digest.py:220-226).
- The top-three items and failed sources of `write_log` (digest.py:680-698).

Modules, one file each:

- `Wrappers`: `Option` and `Result`.
- `Text`: Python's `strip`, `split("\n")`, `"\n".join` and slicing.
- `Ranking`: `list.sort(key=..., reverse=True)` as a stable insertion sort, proved sorted, a permutation and stable.
- `Items`: scored items, profile rules and the `SOURCE_META` labels.
- `Fences`: stripping the code fence.
- `Curation`: `curate`.
- `Markdown`: `md_to_html`.
- `Editorial`: the intro highlights and section tiers.
- `RunLog`: `_record` and `write_log`.

Python dicts keep insertion order, and that order is observable. Ties in the
run log's ranking are broken by it. So a dict is a sequence of key/value
entries, and assigning to a key keeps its place.

The language model is an input:

- `curate` receives its reply, either a text or a failure.
- `json.loads` is a `parse` parameter that returns the scored map or an error.
- In the summarise stage the reply is a function of part of the prompt:
  - For the intro, that part is the first six highlights. The date and the profile's name, role and interests are left out (see below).
  - For a section, that part is the source label, the three tier lists and the content. The content is the first 3000 characters of the raw text for `tldr` and `lenny` when that text is non-empty, and otherwise the items with their titles and urls.

The response loop (digest.py:389) curates every key the reply contains,
whether `SOURCE_META` knows it or not (`Curation.InventedKeyIsCurated`).

The model has two readings of `md_to_html`:

- `Markdown.Walk` is the loop's own front-to-back fold, one line at a time, defined by recursion on the last line.
- `Markdown.RenderBlocks` reads the blocks from the front.

The contract of `Markdown.Render` states that the two agree. The structural
properties are proved on the front-to-back reading.

## Model

| member | source | states |
|---|---|---|
| Text.Strip | digest.py:325 | `str.strip()`: the result has no leading or trailing whitespace |
| Text.StripFacts | digest.py:325 | the result is the slice `s[a:b]` of the input where everything before `a` and from `b` on is whitespace; stripped text is left alone, and exactly the all-whitespace texts become empty |
| Text.TrimLeft | digest.py:381 | `lstrip`: the result is a suffix, starts with a non-space, and everything dropped is whitespace |
| Text.TrimRight | digest.py:382 | `rstrip`: the result is a prefix, ends with a non-space, and everything dropped is whitespace |
| Text.Take | digest.py:327 | `s[:n]` for `n >= 0` is the first `min(n, len)` elements |
| Text.PyPrefix | digest.py:398 | `s[:n]` for any integer: `Take` for `n >= 0`, otherwise the length is `len + n` floored at 0; always a prefix |
| Text.SplitLines | digest.py:325 | `split("\n")` gives at least one piece and no piece holds a newline |
| Text.JoinSplitLines | digest.py:539 | joining the pieces of a split with newlines gives the text back |
| Text.SplitJoinLines | digest.py:558 | splitting a join of newline-free lines gives the lines back |
| Ranking.SortDescPermutes | digest.py:397 | the sort is a permutation of its input |
| Ranking.SortDescSorted | digest.py:397 | the sort's output is in non-increasing key order |
| Ranking.SortDescStable | digest.py:397 | among equal keys the sort keeps the input order |
| Ranking.InsertDescPermutes | digest.py:397 | one insertion step adds exactly the inserted element |
| Ranking.InsertDescSorted | digest.py:397 | one insertion step keeps a descending sequence descending |
| Ranking.WithKeyInsert | digest.py:397 | inserting puts the new element before every equal-keyed element |
| Ranking.WithKeyOfPrefix | digest.py:398 | a cut keeps, of each key value, the first elements |
| Ranking.PrefixSortedDrawn | digest.py:398 | a prefix of a descending sequence is descending and drawn from it |
| Ranking.PrefixIsTop | digest.py:398 | every element a prefix leaves out scores no higher than any element it keeps |
| Items.TaggedAppend | digest.py:682-683 | pairing two runs of a source's items with its key gives the pairs of each run, in order |
| Items.TaggedMembers | digest.py:432-433 | the pairs of one source's visit are exactly its key with each of its items |
| Items.FlattenMembers | digest.py:433-434 | the nested `for source, items / for item` visit reaches exactly the items of every source |
| Fences.StripFences | digest.py:381-382 | removing the fence leaves stripped text |
| Fences.UnfencedUnchanged | digest.py:381-382 | text without fences is only stripped |
| Fences.FencedRoundTrip | digest.py:381-382 | a stripped body wrapped in a fence, tagged `json` or not, comes back exactly |
| Fences.ClosingFenceKeepsStripped | digest.py:382 | dropping the closing fence keeps stripped text stripped |
| Fences.OpeningFenceOf | digest.py:381 | for a fence, an optional `json` tag, a run of whitespace (non-empty without the tag) and then any text, the opening substitution leaves that text with its leading whitespace stripped |
| Fences.ClosingRoundTrip | digest.py:382 | the closing substitution drops the fence and the newline before it |
| Curation.DashLines | digest.py:325 | every kept line is stripped and starts with `-` |
| Curation.DashLinesOf | digest.py:325 | there are no more kept lines than lines |
| Curation.DashLinesOfSound | digest.py:325 | each kept line is stripped and starts with `-` |
| Curation.DashLinesOfLine | digest.py:325 | one line is kept, stripped, exactly when its stripped form starts with `-`, and dropped otherwise |
| Curation.DashLinesOfAppend | digest.py:325 | the kept lines of two runs of lines are the kept lines of the first followed by those of the second |
| Curation.NormaliseSource | digest.py:325-330 | a source gives at most 15 items, none of them empty |
| Curation.Normalised | digest.py:321-330 | `items_by_source` has at most one entry per raw source, and each entry has items |
| Curation.DashLinesNoNewline | digest.py:325 | no kept line contains a newline |
| Curation.NormaliseSourceShape | digest.py:322-330 | a source normalises to nothing exactly when its text is empty, or has no dash lines and starts with `[`; otherwise it gets its first ≤15 dash lines in order, or one item that is the text's first ≤800 characters |
| Curation.NormaliseIdempotent | digest.py:325-327 | normalising the joined dash lines of a source again gives the same items |
| Curation.NormaliseDashLines | digest.py:325-327 | up to 15 dash lines, joined, normalise to themselves |
| Curation.NormaliseDashText | digest.py:325-327 | a text with dash lines normalises to its first 15 dash lines |
| Curation.JoinedDashLines | digest.py:325 | the dash lines of joined dash lines are those lines |
| Curation.SingleDashLine | digest.py:325-327 | one stripped dash line normalises to itself |
| Curation.NormalisedMembers | digest.py:321-330 | a normalised entry comes from a raw entry with a non-empty item list, and every raw entry with items appears |
| Curation.NormalisedKeysFromRaw | digest.py:321-330 | every normalised key is a raw key |
| Curation.NothingToCurate | digest.py:322-333 | nothing is left exactly when every text is empty, or has no dash lines and starts with `[`; in particular when every text is empty |
| Curation.NormaliseAll | digest.py:321-330 | the normalising loop builds `items_by_source` |
| Curation.Passing | digest.py:391-395 | the filter keeps at most the items it is given |
| Curation.PassingWithKey | digest.py:391-395 | of each score value, the filter keeps every item in response order when that value passes, and none otherwise |
| Curation.CurateSource | digest.py:390-398 | a source's curated list has no more items than the response gives it |
| Curation.PassingFacts | digest.py:390-395 | an item passes exactly when the source is always included or its score, 0 when missing, reaches the threshold; the passed items are drawn from the items, and all of them pass for an always-included source |
| Curation.FilterPassing | digest.py:391-395 | the filtering loop computes the passed list |
| Curation.CuratedMeetThreshold | digest.py:390-398 | for a source not always included, every curated item scores at least the threshold |
| Curation.UnscoredDropped | digest.py:393-395 | with a positive threshold, an item without a score is never curated for a source not always included |
| Curation.AlwaysIncludeCount | digest.py:390-398 | for an always-included source the curated count is `min(returned, max_items)`, and with room for all it keeps every item |
| Curation.CuratedCappedSortedDrawn | digest.py:390-398 | each curated list holds exactly `min(len(passed), max_items)` items, where `passed` is the filter's output (for a negative cap, `len(passed) + max_items` floored at 0, as the slice gives), in non-increasing score order, drawn from the returned items |
| Curation.CuratedStableTop | digest.py:390-398 | for each score value, the curated items with that score are a prefix of the response's items with that score, in response order; every passing item the cap drops scores no higher than every kept one |
| Curation.CuratedSingle | digest.py:390-398 | a single passing item is curated alone |
| Curation.CuratedAll | digest.py:387-398 | one curated entry per returned source |
| Curation.CountsAll | digest.py:399-402 | one log entry per returned source |
| Curation.CountsMatchCurated | digest.py:398-402 | the curated map and the log have the response's keys in order; `total_scored` is the number returned and `passed_filter` the curated length |
| Curation.CurateResponse | digest.py:387-404 | the response loop builds the curated map and the counts |
| Curation.WorkedExampleAlwaysIncluded | digest.py:390-398 | an always-included source with scores 0.9, 0.85, 0.3, 0.2, 0.95 and cap 3 keeps 0.95, 0.9, 0.85 |
| Curation.WorkedExampleThreshold | digest.py:390-398 | scores 0.9, 0.4, 0.7 with threshold 0.6 keep 0.9 then 0.7 |
| Curation.WorkedSort | digest.py:397 | the stable sort of the worked example |
| Curation.FallbackItem | digest.py:412-413 | the fallback item has the text's first ≤200 characters as title, url "", score 1.0, tier "high", category "fallback" |
| Curation.FallbackAll | digest.py:409-413 | the fallback has at most one entry per raw source, each holding exactly one item |
| Curation.FallbackKeys | digest.py:409-413 | the fallback has exactly the keys with non-empty text, in raw order |
| Curation.FallbackCovers | digest.py:410-413 | every non-empty raw source has its fallback entry |
| Curation.FallbackFromRaw | digest.py:410-413 | each fallback entry is one fallback item for that source's non-empty text |
| Curation.FallbackKeysDistinct | digest.py:409-413 | the fallback has no repeated key |
| Curation.Fallback | digest.py:409-413 | the fallback loop builds the fallback map |
| Curation.FirstUnlabelled | digest.py:345-346 | no key is found exactly when every key has a label; a key found is unlabelled |
| Curation.FirstUnlabelledIs | digest.py:345-346 | the key found is the first unlabelled one |
| Curation.LookUpLabels | digest.py:345-346 | the label loop stops at the first key `SOURCE_META` lacks |
| Curation.Scored | digest.py:377-414 | the `try` block always returns; on a parsed reply the log's keys are the curated keys, and on a failure the result is the fallback map |
| Curation.ScoredRun | digest.py:377-414 | the `try` block: curate the parsed reply, or the fallback on any failure |
| Curation.CurateSpec | digest.py:308-414 | `curate` raises only with the key of a raw source that `SOURCE_META` lacks |
| Curation.Curate | digest.py:308-414 | `curate` as written |
| Curation.NoContentIsTerminal | digest.py:332-333 | with nothing to curate the result is `({}, {"error": "No content to curate"})` whatever the model would reply, and only then |
| Curation.DegradesOnFailure | digest.py:406-414 | when the call or the parse fails, the result is the fallback map with log `{error, fallback: True}` |
| Curation.ScoredRunLog | digest.py:387-404 | on a parsed reply, the log has one `{total_scored, passed_filter}` entry per returned source, matching the curated map |
| Curation.KnownSourcesScored | digest.py:345-346 | with only known raw sources, `curate` is the scoring step |
| Curation.LabelledSourcesPass | digest.py:345-346 | known raw sources pass the label lookup |
| Curation.InventedKeyIsCurated | digest.py:389 | a source key the model invents is curated like a known one |
| Curation.SingleSource | digest.py:321-330 | one source with items normalises and falls back to its own entry |
| Curation.UnknownSourceEscapesFallback | digest.py:346 | as written, a raw source `SOURCE_META` does not know raises even when the model fails; corrected, it falls back |
| Curation.CurateCorrected | digest.py:308-414 | with the label looked up as elsewhere in the file, `curate` always returns a result |
| Curation.CorrectedAgreesOnKnownSources | digest.py:345-346 | the correction changes nothing when every raw source is known |
| Markdown.Classify | digest.py:543-555 | a line is a bullet exactly when its stripped form starts with `- ` or `* `, and then its text is what follows; it is blank exactly when it strips to nothing; otherwise it is a paragraph of its non-empty stripped text |
| Markdown.BlocksAppend | digest.py:542-544 | each line is classified on its own: the blocks of two runs of lines are the blocks of each run, in order |
| Markdown.Walk | digest.py:541-553 | after the loop, `in_list` is set exactly when the last line seen was a bullet |
| Markdown.Render | digest.py:540-557 | the loop's lines equal the front-to-back reading of the classified lines, started with no list open |
| Markdown.WalkBlocks | digest.py:540-557 | the loop with its `in_list` flag emits the walk's lines and closes an open list at the end |
| Markdown.RenderLines | digest.py:539-557 | the HTML lines of `md_to_html` |
| Markdown.MdToHtml | digest.py:539-558 | the HTML is those lines joined with newlines |
| Markdown.RenderWellFormed | digest.py:544-557 | lists never nest and never stay open; a list starts only with an item; items sit inside a list and paragraphs outside |
| Markdown.RenderBalanced | digest.py:546-557 | there are as many `<ul>` lines as `</ul>` lines |
| Markdown.RenderContent | digest.py:544-555 | apart from list tags, each bullet line yields one `<li>`, each other non-blank line one `<p>` and a blank line nothing, in line order |
| Markdown.ListPerRun | digest.py:545-553 | one `<ul>` per run of consecutive bullet lines; any other line, blank ones included, ends a list |
| Markdown.WellFormedBalanced | digest.py:546-557 | well-formed output balances its list tags |
| Editorial.HighlightsOf | digest.py:432-435 | gathering never yields more highlights than items visited |
| Editorial.IntroFrom | digest.py:437-452 | a non-empty intro means there were highlights and the model answered that text for the first six |
| Editorial.BuildEditorialIntro | digest.py:431-450 | the gathering loop and the call give the intro, or the `KeyError` that escapes |
| Editorial.GatherSource | digest.py:434-436 | the inner loop extends the highlights with one source's high-tier items, or stops at the first missing title or score |
| Editorial.HighlightsFailIff | digest.py:434-436 | gathering raises exactly when some high-tier item lacks a title or a score |
| Editorial.HighlightsAreHighItems | digest.py:434-436 | on success there is one highlight per high-tier item, in visiting order, with its source's label, title and score |
| Editorial.HighItemsMembers | digest.py:435 | the high-tier items are exactly the visited items with tier "high" |
| Editorial.NoHighItemsNoIntro | digest.py:438-439 | with no high-tier item the intro is empty whatever the model would say |
| Editorial.IntroSeesFirstSix | digest.py:441-450 | the intro depends on the first six highlights only |
| Editorial.ErrorSticks | digest.py:436 | once a lookup has raised, later items change nothing |
| Editorial.WithTierMembers | digest.py:463-465 | an item is in a tier's list exactly when it carries that tier |
| Editorial.SplitByTier | digest.py:463-465 | each tier list holds only items of that tier |
| Editorial.WithTierAppend | digest.py:463-465 | a tier list keeps item order: the list for two runs of items is the first run's list followed by the second's |
| Editorial.WithTierSingle | digest.py:463-465 | a tier's list for one item holds it exactly when it carries that tier |
| Editorial.SplitPartitions | digest.py:463-465 | the three tier lists and the untiered items are the items, each once |
| Editorial.SectionPromptOf | digest.py:467-486 | the prompt carries the source's label and the tier split; it carries raw text exactly for `tldr` or `lenny` with non-empty raw text, at most 3000 characters of it from the start (all of it when shorter), and otherwise the items |
| Editorial.SummariseSection | digest.py:460-491 | an empty summary means there were no items or the model answered with empty text |
| Editorial.SectionFailureVisible | digest.py:487-490 | a failed call gives a visible `[Summary unavailable: ...]` section, never an empty one |
| RunLog.Assign | digest.py:221-222 | after `d[key] = v` the entry `(key, v)` is present, and the dict grows by one exactly when the key is new |
| RunLog.AssignLookup | digest.py:221-222 | after `d[key] = v` the key holds `v` and every other key its old value |
| RunLog.AssignKeys | digest.py:221-222 | an assignment keeps the key order and appends a new key |
| RunLog.AssignDistinct | digest.py:221-222 | an assignment keeps keys distinct |
| RunLog.FetchLog.constructor | digest.py:217-218 | the two dicts start empty |
| RunLog.FetchLog.Record | digest.py:220-226 | `_record` assigns the content to `raw` and the status to `fetch_log` under the key, keeping both with the same keys |
| RunLog.StatusOf | digest.py:222-226 | the status is "ok" or "failed", "failed" exactly when an error was given; `chars` is the content's length and the error is kept |
| RunLog.RecordedStatus | digest.py:222-226 | the recorded entry has `chars` = the content's length, status "ok" exactly when there is no error and "failed" otherwise, and the error |
| RunLog.FailedSources | digest.py:698 | the failed sources are keys of the fetch log, no more of them than entries |
| RunLog.FailedSourcesIff | digest.py:698 | a source is listed as failed exactly when its entry's status is "failed" |
| RunLog.FailedSourcesAppend | digest.py:698 | the failed sources keep fetch-log order: the list for two runs of entries is the first run's list followed by the second's |
| RunLog.FailedSourcesSingle | digest.py:698 | one entry is listed exactly when its status is "failed" |
| RunLog.FailedAfterRecord | digest.py:220-226 | after recording, a source is failed exactly when an error was given; other sources keep their standing |
| RunLog.LogItemOf | digest.py:684-689 | the entry has the item's source, and its title, score and tier with `get`'s defaults "", 0 and "" |
| RunLog.LogItemsAppend | digest.py:682-689 | each visited item gives its own entry: the entries of two runs of visits are the entries of each run, in order |
| RunLog.CollectLogItems | digest.py:682-690 | the nested loop fills `all_items` in visiting order |
| RunLog.WriteLog | digest.py:680-698 | the run record carries the fetch log, the curation log, the top items and the failed sources |
| RunLog.TopItems | digest.py:690-697 | there are at most three top items |
| RunLog.TopItemsFacts | digest.py:690-697 | at most three top items, fewer only when fewer were curated; non-increasing score, drawn from all items, none outscored by an item left out, and equal scores in curated order |
| RunLog.TopItemsFromCurated | digest.py:682-696 | every top item stands for a curated item of its source |

## Left out

- Fetching (`fetch_rss`, IMAP mail, HTTP scraping), sending mail, `time.sleep`, dates, file writing, `load_profile`, `main` and the progress `print`s (among them the scoring-failure message at digest.py:408) are I/O. The calls of `_record` inside `fetch_all_raw` and `summarise_all`'s loop are orchestration; only `_record` itself is modelled.
- `llm_call` and the prompt text are left out. The reply is an input. The profile summary and prompt f-strings (digest.py:335-375, 441-447, 472-485) are not modelled. The `KeyError`s that building the section prompt can raise for items without a title or url (digest.py:469-478) are left out too.
- `json.loads` and the shape of the parsed JSON are the `parse` parameter.
- Scores are assumed numeric. The model does not cover a score of another type. With one, the comparison at digest.py:394 raises only for a source that is not always included, because `always or ...` short-circuits. The sort at digest.py:397 raises when it compares two scores Python cannot order, such as a string with a number, or `None` with anything, `None` included.
- The intro oracle sees only the highlights. The date and the profile fields in the intro prompt (digest.py:441-442) are not passed to it.
- `_apply_inline`, the regular-expression rewriting of links and bold text, is an uninterpreted function.
- Scores are reals. Python floats and the `:.2f` formatting are not modelled.
- `list.sort` (Timsort) is modelled by a stable insertion sort with the same result.
- Whitespace is `str.isspace` on single code points. There is no other Unicode handling.
- `Markdown.RenderLines` classifies all lines first and then walks them, while the loop trims each line as it reaches it. Trimming is pure, so the output is the same.
- The properties of `md_to_html` are stated on the HTML lines before the final join.

## Findings

| source | as written | input that shows it | evidently intended | confidence | as-written member | corrected member |
|---|---|---|---|---|---|---|
| digest.py:346 | `SOURCE_META[source_key]` is indexed outside the `try`, so a raw source key missing from the table raises `KeyError` out of `curate` | raw `{"hn": "- item"}`, with any reply from the model | look the label up with `.get` as line 435 does, or inside the `try`, so the run degrades to the fallback | not executed | Curation.UnknownSourceEscapesFallback | Curation.CurateCorrected |

=== FILE: curation.dfy ===
/** The curate stage (digest.py lines 308-414): normalise the raw text of
    every source into item lines, send one batched request to the
    relevance oracle, then filter, rank and cap what it returns per
    source, or degrade to one unscored item per source when scoring
    fails. */
module Curation {
  import opened Wrappers
  import opened Text
  import opened Ranking
  import opened Fences
  import opened Items

  /** At most this many dash lines of one source go to the oracle. */
  const DashItemCap := 15
  /** Prose without dash lines goes as one block of at most this many characters. */
  const BlockItemCap := 800
  /** A fallback item's title is the first this-many characters of the raw text. */
  const FallbackTitleCap := 200
  const NoContentMessage := "No content to curate"

  /** Per-source entry of the curation log. */
  datatype Counts = Counts(totalScored: nat, passedFilter: nat)

  /** The three shapes of the curation log: per-source counts after a
      scored run, `{"error": "No content to curate"}`, and
      `{"error": str(e), "fallback": True}` after a failed one. */
  datatype CurationLog =
    | PerSource(counts: Entries<Counts>)
    | NoContent(error: string)
    | Degraded(error: string)

  /** What `curate` does: returns a curated map and its log, or lets an
      exception escape. The only exception that can escape is the
      `KeyError` of the label lookup, which carries the key. */
  datatype Curation =
    | Curated(curated: Entries<seq<Item>>, log: CurationLog)
    | Raised(missingKey: string)

  /** Parsing the cleaned reply (`json.loads` and the dict-of-lists shape
      the loop relies on) is left to the caller: a JSON object mapping each
      source key to a list of item objects, or the text of the error. */
  type Parser = string -> Result<Entries<seq<Item>>, string>

  // ---------------------------------------------------------------------
  // Normalisation (digest.py lines 321-333)
  // ---------------------------------------------------------------------

  /** `[l.strip() for l in lines if l.strip().startswith("-")]`. */
  function DashLinesOf(lines: seq<string>): (r: seq<string>)
    ensures |r| <= |lines|
  {
    if lines == [] then []
    else DashOf(lines[0]) + DashLinesOf(lines[1..])
  }

  /** The trimmed dash-prefixed lines of a text, in order. */
  function DashLines(text: string): (r: seq<string>)
    ensures forall i :: 0 <= i < |r| ==> Stripped(r[i]) && StartsWith(r[i], "-")
  {
    DashLinesOfSound(SplitLines(text));
    DashLinesOf(SplitLines(text))
  }

  /** Every kept line is trimmed and starts with `-`. */
  lemma {:induction false} DashLinesOfSound(lines: seq<string>)
    ensures forall i :: 0 <= i < |DashLinesOf(lines)| ==>
              Stripped(DashLinesOf(lines)[i]) && StartsWith(DashLinesOf(lines)[i], "-")
  {
    if lines != [] {
      var s := Strip(lines[0]);
      var head := if StartsWith(s, "-") then [s] else [];
      var rest := DashLinesOf(lines[1..]);
      DashLinesOfSound(lines[1..]);
      assert DashLinesOf(lines) == head + rest;
      forall i | 0 <= i < |head + rest|
        ensures Stripped((head + rest)[i]) && StartsWith((head + rest)[i], "-")
      {
        if i >= |head| {
          assert (head + rest)[i] == rest[i - |head|];
        }
      }
    }
  }

  /** One line contributes its trimmed form exactly when that starts
      with `-`. */
  lemma DashLinesOfLine(line: string)
    ensures DashLinesOf([line]) == if StartsWith(Strip(line), "-") then [Strip(line)] else []
  {
    assert [line][1..] == [];
  }

  /** The dash lines of two runs of lines are those of the first followed
      by those of the second: with `DashLinesOfLine`, every dash line is
      kept, in order, and nothing else. */
  lemma DashLinesOfAppend(a: seq<string>, b: seq<string>)
    ensures DashLinesOf(a + b) == DashLinesOf(a) + DashLinesOf(b)
  {
    DashLinesOfIsFlatMap(a + b);
    DashLinesOfIsFlatMap(a);
    DashLinesOfIsFlatMap(b);
    FlatMapAppend(DashOf, a, b);
  }

  /** What one line contributes: its trimmed form, when that starts with
      `-`. */
  function DashOf(line: string): seq<string> {
    var s := Strip(line);
    if StartsWith(s, "-") then [s] else []
  }

  /** The pieces `f` makes of each element, in order. */
  lemma Assoc3<T>(x: seq<T>, y: seq<T>, z: seq<T>)
    ensures x + (y + z) == (x + y) + z
  {
  }

  function FlatMap<T, U>(f: T -> seq<U>, xs: seq<T>): seq<U> {
    if xs == [] then [] else f(xs[0]) + FlatMap(f, xs[1..])
  }

  lemma {:induction false} FlatMapAppend<T, U>(f: T -> seq<U>, a: seq<T>, b: seq<T>)
    ensures FlatMap(f, a + b) == FlatMap(f, a) + FlatMap(f, b)
  {
    if a == [] {
      assert a + b == b;
    } else {
      FlatMapAppend(f, a[1..], b);
      assert (a + b)[0] == a[0] && (a + b)[1..] == a[1..] + b;
      Assoc3(f(a[0]), FlatMap(f, a[1..]), FlatMap(f, b));
    }
  }

  lemma {:induction false} DashLinesOfIsFlatMap(lines: seq<string>)
    ensures DashLinesOf(lines) == FlatMap(DashOf, lines)
  {
    if lines != [] {
      DashLinesOfIsFlatMap(lines[1..]);
    }
  }

  lemma {:induction false} DashLinesOfNoNewline(lines: seq<string>)
    requires forall i :: 0 <= i < |lines| ==> '\n' !in lines[i]
    ensures forall i :: 0 <= i < |DashLinesOf(lines)| ==> '\n' !in DashLinesOf(lines)[i]
  {
    if lines != [] {
      var s := Strip(lines[0]);
      var head := if StartsWith(s, "-") then [s] else [];
      var rest := DashLinesOf(lines[1..]);
      DashLinesOfNoNewline(lines[1..]);
      StripKeepsOut(lines[0], '\n');
      assert DashLinesOf(lines) == head + rest;
      ConsNoNewline(head, rest);
    }
  }

  lemma ConsNoNewline(head: seq<string>, rest: seq<string>)
    requires forall i :: 0 <= i < |head| ==> '\n' !in head[i]
    requires forall i :: 0 <= i < |rest| ==> '\n' !in rest[i]
    ensures forall i :: 0 <= i < |head + rest| ==> '\n' !in (head + rest)[i]
  {
    forall i | 0 <= i < |head + rest|
      ensures '\n' !in (head + rest)[i]
    {
      if i >= |head| {
        assert (head + rest)[i] == rest[i - |head|];
      }
    }
  }

  /** A dash line never spans two lines of the text. */
  lemma DashLinesNoNewline(text: string)
    ensures forall i :: 0 <= i < |DashLines(text)| ==> '\n' !in DashLines(text)[i]
  {
    DashLinesOfNoNewline(SplitLines(text));
  }

  /** The item lines one source contributes; empty when the source is
      left out of the request. */
  function NormaliseSource(text: string): (r: seq<string>)
    ensures |r| <= DashItemCap
    ensures forall i :: 0 <= i < |r| ==> r[i] != []
  {
    if text == "" then []
    else
      var lines := DashLines(text);
      if lines != [] then Take(lines, DashItemCap)
      else if text[0] != '[' then [Take(text, BlockItemCap)]
      else []
  }

  /** `items_by_source`: the sources with items, in raw order. */
  function Normalised(raw: Entries<string>): (r: Entries<seq<string>>)
    ensures |r| <= |raw|
    ensures forall i :: 0 <= i < |r| ==> r[i].1 != []
  {
    if raw == [] then []
    else
      var n := |raw| - 1;
      var items := NormaliseSource(raw[n].1);
      Normalised(raw[..n]) + (if items != [] then [(raw[n].0, items)] else [])
  }

  /** What one source becomes: the first fifteen of its trimmed dash
      lines, in order; or, lacking dash lines, the text itself cut to 800
      characters as a single block, unless it is empty or starts with
      `[` (an error marker), in which case it contributes nothing. */
  lemma NormaliseSourceShape(text: string)
    ensures var r := NormaliseSource(text);
      && (r == [] <==> text == "" || (DashLines(text) == [] && text[0] == '['))
      && |r| <= DashItemCap
      && (DashLines(text) != [] ==>
            |r| == (if |DashLines(text)| < DashItemCap then |DashLines(text)| else DashItemCap)
            && r == DashLines(text)[..|r|])
      && (DashLines(text) == [] && r != [] ==>
            |r| == 1 && StartsWith(text, r[0])
            && |r[0]| == (if |text| < BlockItemCap then |text| else BlockItemCap))
  {
    if |text| == 0 {
      NoDashLinesInEmpty(text);
    }
    ShapeOf(text, DashLines(text), NormaliseSource(text));
  }

  lemma NoDashLinesInEmpty(text: string)
    requires |text| == 0
    ensures DashLines(text) == []
  {
    var lines := SplitLines(text);
    assert lines == [text];
    var s := Strip(text);
    assert |s| == 0;
    assert !StartsWith(s, "-");
    assert lines[1..] == [];
    assert DashLinesOf(lines) == DashLinesOf(lines[1..]);
  }

  /** The shape of a source's items, for any dash lines `d`. */
  lemma ShapeOf(text: string, d: seq<string>, r: seq<string>)
    requires text == "" ==> d == []
    requires r == if text == "" then []
                  else if d != [] then Take(d, DashItemCap)
                  else if text[0] != '[' then [Take(text, BlockItemCap)]
                  else []
    ensures && (r == [] <==> text == "" || (d == [] && text[0] == '['))
      && |r| <= DashItemCap
      && (d != [] ==> |r| == (if |d| < DashItemCap then |d| else DashItemCap) && r == d[..|r|])
      && (d == [] && r != [] ==>
            |r| == 1 && StartsWith(text, r[0])
            && |r[0]| == (if |text| < BlockItemCap then |text| else BlockItemCap))
  {
  }

  /** A trimmed dash line passes through the dash-line filter unchanged. */
  lemma {:induction false} DashLinesOfDashes(lines: seq<string>)
    requires forall i :: 0 <= i < |lines| ==> Stripped(lines[i]) && StartsWith(lines[i], "-")
    ensures DashLinesOf(lines) == lines
  {
    if lines != [] {
      DashLinesOfDashes(lines[1..]);
      StripStripped(lines[0]);
      assert [lines[0]] + lines[1..] == lines;
    }
  }

  /** Normalising the item lines of a dash-list source again, joined back
      into a text, changes nothing: no further cut, no reordering. */
  lemma NormaliseIdempotent(text: string)
    requires DashLines(text) != []
    ensures NormaliseSource(JoinLines(NormaliseSource(text))) == NormaliseSource(text)
  {
    NormaliseDashText(text);
    DashLinesNoNewline(text);
    NormaliseDashLines(DashLines(text));
  }

  lemma NormaliseDashLines(d: seq<string>)
    requires d != []
    requires forall i :: 0 <= i < |d| ==> Stripped(d[i]) && StartsWith(d[i], "-") && '\n' !in d[i]
    ensures NormaliseSource(JoinLines(Take(d, DashItemCap))) == Take(d, DashItemCap)
  {
    var r := Take(d, DashItemCap);
    assert forall i :: 0 <= i < |r| ==> r[i] == d[i];
    JoinedDashLines(r);
    NormaliseDashText(JoinLines(r));
    assert Take(r, DashItemCap) == r;
  }

  lemma NormaliseDashText(t: string)
    requires DashLines(t) != []
    ensures NormaliseSource(t) == Take(DashLines(t), DashItemCap)
  {
  }

  /** Dash lines joined into a text are that text's dash lines. */
  lemma JoinedDashLines(r: seq<string>)
    requires |r| >= 1
    requires forall i :: 0 <= i < |r| ==> Stripped(r[i]) && StartsWith(r[i], "-") && '\n' !in r[i]
    ensures JoinLines(r) != "" && DashLines(JoinLines(r)) == r
  {
    SplitJoinLines(r);
    DashLinesOfDashes(r);
    assert |r[0]| >= 1;
    assert |JoinLines(r)| >= |r[0]|;
  }

  /** The sources that reach the request are exactly the raw sources that
      yield items, each with the items its own text yields. */
  lemma {:induction false} NormalisedMembers(raw: Entries<string>)
    ensures forall e :: e in Normalised(raw) ==>
              e.1 != [] && exists t :: (e.0, t) in raw && e.1 == NormaliseSource(t)
    ensures forall e :: e in raw && NormaliseSource(e.1) != [] ==>
              (e.0, NormaliseSource(e.1)) in Normalised(raw)
  {
    if raw != [] {
      var n := |raw| - 1;
      NormalisedMembers(raw[..n]);
      assert raw == raw[..n] + [raw[n]];
      forall e | e in Normalised(raw)
        ensures e.1 != [] && exists t :: (e.0, t) in raw && e.1 == NormaliseSource(t)
      {
        if e in Normalised(raw[..n]) {
          var t :| (e.0, t) in raw[..n] && e.1 == NormaliseSource(t);
          assert (e.0, t) in raw;
        } else {
          assert e == (raw[n].0, NormaliseSource(raw[n].1));
          assert (e.0, raw[n].1) == raw[n];
        }
      }
    }
  }

  /** No source yields items exactly when every text is empty or is an
      error marker without dash lines; in particular an empty map, or one
      whose texts are all empty. */
  lemma NothingToCurate(raw: Entries<string>)
    ensures Normalised(raw) == [] <==>
              forall e :: e in raw ==> e.1 == "" || (DashLines(e.1) == [] && e.1[0] == '[')
    ensures (forall e :: e in raw ==> e.1 == "") ==> Normalised(raw) == []
  {
    NormalisedMembers(raw);
    forall e | e in raw ensures NormaliseSource(e.1) == [] <==> e.1 == "" || (DashLines(e.1) == [] && e.1[0] == '[') {
      NormaliseSourceShape(e.1);
    }
    if Normalised(raw) != [] {
      assert Normalised(raw)[0] in Normalised(raw);
    }
  }

  method NormaliseAll(raw: Entries<string>) returns (itemsBySource: Entries<seq<string>>)
    ensures itemsBySource == Normalised(raw)
  {
    itemsBySource := [];
    var i := 0;
    while i < |raw|
      invariant 0 <= i <= |raw|
      invariant itemsBySource == Normalised(raw[..i])
    {
      var (key, text) := raw[i];
      assert raw[..i + 1][..i] == raw[..i];
      if text != "" {
        var lines := DashLines(text);
        if lines != [] {
          itemsBySource := itemsBySource + [(key, Take(lines, DashItemCap))];
        } else if text[0] != '[' {
          itemsBySource := itemsBySource + [(key, [Take(text, BlockItemCap)])];
        }
      }
      i := i + 1;
    }
    assert raw[..|raw|] == raw;
  }

  // ---------------------------------------------------------------------
  // Filter, rank and cap (digest.py lines 387-404)
  // ---------------------------------------------------------------------

  /** The items a source keeps before ranking: all of them for an
      always-include source, otherwise those scoring at least the
      threshold, in response order. */
  function Passing(items: seq<Item>, always: bool, threshold: real): (r: seq<Item>)
    ensures |r| <= |items|
  {
    if items == [] then []
    else
      var n := |items| - 1;
      Passing(items[..n], always, threshold) + (if always || ScoreOf(items[n]) >= threshold then [items[n]] else [])
  }

  /** The filter keeps exactly the items that qualify, each as often as it
      was returned at most, and everything for an always-include source. */
  lemma {:induction false} PassingFacts(items: seq<Item>, always: bool, threshold: real)
    ensures var r := Passing(items, always, threshold);
      && multiset(r) <= multiset(items)
      && (always ==> r == items)
      && (forall x :: x in r <==> x in items && (always || ScoreOf(x) >= threshold))
  {
    if items != [] {
      var n := |items| - 1;
      PassingFacts(items[..n], always, threshold);
      assert items == items[..n] + [items[n]];
    }
  }

  /** The filter keeps the response order: for each score value, the
      passed items with that score are all the returned items with that
      score, in order, when the value qualifies, and none otherwise. */
  lemma {:induction false} PassingWithKey(items: seq<Item>, always: bool, threshold: real, v: real)
    ensures WithKey(Passing(items, always, threshold), ScoreOf, v)
         == if always || v >= threshold then WithKey(items, ScoreOf, v) else []
  {
    if items != [] {
      var n := |items| - 1;
      var x := items[n];
      var front := Passing(items[..n], always, threshold);
      var last := if always || ScoreOf(x) >= threshold then [x] else [];
      PassingWithKey(items[..n], always, threshold, v);
      SplitLast(items, []);
      WithKeyAppend(items[..n], [x], ScoreOf, v);
      WithKeyAppend(front, last, ScoreOf, v);
      WithKeySingle(x, ScoreOf, v);
      if last == [] {
        assert WithKey(last, ScoreOf, v) == [];
      }
    }
  }


  /** `passed[:max_items]` after sorting `passed` by score, descending. */
  function CurateSource(key: string, items: seq<Item>, rules: ContentRules): (r: seq<Item>)
    ensures |r| <= |items|
  {
    PyPrefix(SortDesc(Passing(items, key in rules.alwaysInclude, rules.threshold), ScoreOf),
             rules.maxItemsPerSection)
  }

  function CuratedAll(scored: Entries<seq<Item>>, rules: ContentRules): (r: Entries<seq<Item>>)
    ensures |r| == |scored|
  {
    seq(|scored|, i requires 0 <= i < |scored| =>
      (scored[i].0, CurateSource(scored[i].0, scored[i].1, rules)))
  }

  function CountsAll(scored: Entries<seq<Item>>, rules: ContentRules): (r: Entries<Counts>)
    ensures |r| == |scored|
  {
    seq(|scored|, i requires 0 <= i < |scored| =>
      (scored[i].0, Counts(|scored[i].1|, |CurateSource(scored[i].0, scored[i].1, rules)|)))
  }

  /** Threshold: a source not in the always-include list keeps only items
      scoring at least the threshold. */
  lemma CuratedMeetThreshold(key: string, items: seq<Item>, rules: ContentRules)
    requires key !in rules.alwaysInclude
    ensures forall i :: 0 <= i < |CurateSource(key, items, rules)| ==>
              ScoreOf(CurateSource(key, items, rules)[i]) >= rules.threshold
  {
    var passed := Passing(items, false, rules.threshold);
    var sorted := SortDesc(passed, ScoreOf);
    var r := CurateSource(key, items, rules);
    PassingFacts(items, false, rules.threshold);
    SortDescPermutes(passed, ScoreOf);
    forall i | 0 <= i < |r| ensures ScoreOf(r[i]) >= rules.threshold {
      assert r[i] == sorted[i];
      assert sorted[i] in multiset(sorted);
      assert sorted[i] in passed;
    }
  }

  /** An item without a score counts as 0 and so is dropped by any
      positive threshold. */
  lemma UnscoredDropped(key: string, items: seq<Item>, rules: ContentRules)
    requires key !in rules.alwaysInclude && rules.threshold > 0.0
    ensures forall i :: 0 <= i < |CurateSource(key, items, rules)| ==>
              CurateSource(key, items, rules)[i].score.Some?
  {
    CuratedMeetThreshold(key, items, rules);
  }

  /** Always-include: such a source keeps min(returned, cap) items
      whatever their scores, and all of them when they fit. */
  lemma AlwaysIncludeCount(key: string, items: seq<Item>, rules: ContentRules)
    requires key in rules.alwaysInclude && rules.maxItemsPerSection >= 0
    ensures var r := CurateSource(key, items, rules);
      && |r| == (if |items| < rules.maxItemsPerSection then |items| else rules.maxItemsPerSection)
      && (|items| <= rules.maxItemsPerSection ==> multiset(r) == multiset(items))
  {
    PassingFacts(items, true, rules.threshold);
    var sorted := SortDesc(items, ScoreOf);
    assert CurateSource(key, items, rules) == PyPrefix(sorted, rules.maxItemsPerSection);
    if |items| <= rules.maxItemsPerSection {
      assert CurateSource(key, items, rules) == sorted;
      SortDescPermutes(items, ScoreOf);
    }
  }

  /** Cap, count, order and origin: the first `max_items_per_section`
      passing items, or all of them when fewer pass (a negative cap counts
      from the end, as a Python slice does); non-increasing in score; all
      taken from what the oracle returned for the source. */
  lemma CuratedCappedSortedDrawn(key: string, items: seq<Item>, rules: ContentRules)
    ensures var passed := Passing(items, key in rules.alwaysInclude, rules.threshold);
      var r := CurateSource(key, items, rules);
      var cap := rules.maxItemsPerSection;
      && (cap >= 0 ==> |r| <= cap)
      && (cap >= 0 ==> |r| == if |passed| < cap then |passed| else cap)
      && (cap < 0 ==> |r| == if |passed| + cap < 0 then 0 else |passed| + cap)
      && SortedDesc(r, ScoreOf)
      && multiset(r) <= multiset(items)
  {
    var passed := Passing(items, key in rules.alwaysInclude, rules.threshold);
    var sorted := SortDesc(passed, ScoreOf);
    var r := CurateSource(key, items, rules);
    assert r == PyPrefix(sorted, rules.maxItemsPerSection);
    assert r == sorted[..|r|];
    PassingFacts(items, key in rules.alwaysInclude, rules.threshold);
    SortDescPermutes(passed, ScoreOf);
    assert |sorted| == |passed| by {
      assert |multiset(sorted)| == |multiset(passed)|;
    }
    SortDescSorted(passed, ScoreOf);
    PrefixSortedDrawn(sorted, |r|, ScoreOf);
  }

  predicate IsPrefix<T(==)>(p: seq<T>, s: seq<T>) {
    |p| <= |s| && s[..|p|] == p
  }

  /** Stability and ranking: among kept items with equal scores the
      response order is kept, and the cap drops the later ones; every
      passing item the cap drops scores no higher than any item kept. */
  lemma CuratedStableTop(key: string, items: seq<Item>, rules: ContentRules)
    ensures var passed := Passing(items, key in rules.alwaysInclude, rules.threshold);
      var r := CurateSource(key, items, rules);
      && (forall v :: IsPrefix(WithKey(r, ScoreOf, v), WithKey(items, ScoreOf, v)))
      && (forall x :: x in passed && x !in r ==> forall y :: y in r ==> ScoreOf(x) <= ScoreOf(y))
  {
    var passed := Passing(items, key in rules.alwaysInclude, rules.threshold);
    var sorted := SortDesc(passed, ScoreOf);
    var r := CurateSource(key, items, rules);
    assert r == sorted[..|r|];
    forall v ensures IsPrefix(WithKey(r, ScoreOf, v), WithKey(items, ScoreOf, v)) {
      SortDescStable(passed, ScoreOf, v);
      WithKeyOfPrefix(sorted, |r|, ScoreOf, v);
      PassingWithKey(items, key in rules.alwaysInclude, rules.threshold, v);
    }
    SortDescSorted(passed, ScoreOf);
    PrefixIsTop(sorted, |r|, ScoreOf);
    SortDescPermutes(passed, ScoreOf);
    forall x | x in passed && x !in r ensures x in sorted {
      assert x in multiset(sorted);
    }
  }

  /** One curated list and one log entry per returned source key, in
      response order; each entry counts the items returned and the items
      kept. */
  lemma CountsMatchCurated(scored: Entries<seq<Item>>, rules: ContentRules)
    ensures Keys(CuratedAll(scored, rules)) == Keys(scored)
    ensures Keys(CountsAll(scored, rules)) == Keys(scored)
    ensures forall i :: 0 <= i < |scored| ==>
              CountsAll(scored, rules)[i].1 == Counts(|scored[i].1|, |CuratedAll(scored, rules)[i].1|)
  {
  }

  /** The filter loop of one source. */
  method FilterPassing(items: seq<Item>, always: bool, threshold: real) returns (passed: seq<Item>)
    ensures passed == Passing(items, always, threshold)
  {
    passed := [];
    var k := 0;
    while k < |items|
      invariant 0 <= k <= |items|
      invariant passed == Passing(items[..k], always, threshold)
    {
      assert items[..k + 1][..k] == items[..k];
      if always || ScoreOf(items[k]) >= threshold {
        passed := passed + [items[k]];
      }
      k := k + 1;
    }
    assert items[..|items|] == items;
  }

  /** The loop over the oracle's response: one curated list and one log
      entry per returned source key, in response order. */
  method CurateResponse(scored: Entries<seq<Item>>, rules: ContentRules)
    returns (curated: Entries<seq<Item>>, counts: Entries<Counts>)
    ensures curated == CuratedAll(scored, rules)
    ensures counts == CountsAll(scored, rules)
  {
    curated, counts := [], [];
    var i := 0;
    while i < |scored|
      invariant 0 <= i <= |scored|
      invariant |curated| == i && |counts| == i
      invariant forall j :: 0 <= j < i ==>
                  curated[j] == (scored[j].0, CurateSource(scored[j].0, scored[j].1, rules))
      invariant forall j :: 0 <= j < i ==>
                  counts[j] == (scored[j].0, Counts(|scored[j].1|, |curated[j].1|))
    {
      var (key, items) := scored[i];
      var passed := FilterPassing(items, key in rules.alwaysInclude, rules.threshold);
      passed := SortDesc(passed, ScoreOf);
      var kept := PyPrefix(passed, rules.maxItemsPerSection);
      curated := curated + [(key, kept)];
      counts := counts + [(key, Counts(|items|, |kept|))];
      i := i + 1;
    }
  }

  // ---------------------------------------------------------------------
  // Fallback (digest.py lines 406-414)
  // ---------------------------------------------------------------------

  /** The one item that stands for a source when scoring fails. */
  function FallbackItem(text: string): (r: Item)
    ensures IsFallbackFor(r, text)
  {
    Item(Some(Take(text, FallbackTitleCap)), Some(""), Some(1.0), Some("high"),
         Some("fallback"), Some("scoring unavailable"))
  }

  /** One synthetic item for every raw source with text, in raw order. */
  function FallbackAll(raw: Entries<string>): (r: Entries<seq<Item>>)
    ensures |r| <= |raw|
    ensures forall i :: 0 <= i < |r| ==> |r[i].1| == 1
  {
    if raw == [] then []
    else
      var n := |raw| - 1;
      FallbackAll(raw[..n]) + (if raw[n].1 != "" then [(raw[n].0, [FallbackItem(raw[n].1)])] else [])
  }

  /** The keys of the raw sources with text, in raw order. */
  function NonEmptyKeys(raw: Entries<string>): seq<string> {
    if raw == [] then []
    else
      var n := |raw| - 1;
      NonEmptyKeys(raw[..n]) + (if raw[n].1 != "" then [raw[n].0] else [])
  }

  /** A fallback item carries the first 200 characters of its source's
      text as title, an empty url, score 1.0, tier high and category
      "fallback". */
  predicate IsFallbackFor(item: Item, text: string) {
    && item.title.Some? && StartsWith(text, item.title.value)
    && |item.title.value| == (if |text| < FallbackTitleCap then |text| else FallbackTitleCap)
    && item.url == Some("") && item.score == Some(1.0) && item.tier == Some("high")
    && item.category == Some("fallback") && item.rationale == Some("scoring unavailable")
  }

  /** Fallback completeness: exactly the raw sources with text appear, in
      raw order, ... */
  lemma {:induction false} FallbackKeys(raw: Entries<string>)
    ensures Keys(FallbackAll(raw)) == NonEmptyKeys(raw)
  {
    if raw != [] {
      var n := |raw| - 1;
      FallbackKeys(raw[..n]);
      var front := FallbackAll(raw[..n]);
      var tail := if raw[n].1 != "" then [(raw[n].0, [FallbackItem(raw[n].1)])] else [];
      assert Keys(front + tail) == Keys(front) + Keys(tail);
    }
  }

  /** ... each raw source with text gets the synthetic item built from its
      own text ... */
  lemma {:induction false} FallbackCovers(raw: Entries<string>)
    ensures forall e :: e in raw && e.1 != "" ==> (e.0, [FallbackItem(e.1)]) in FallbackAll(raw)
  {
    if raw != [] {
      var n := |raw| - 1;
      FallbackCovers(raw[..n]);
      assert raw == raw[..n] + [raw[n]];
    }
  }

  /** ... and every entry holds exactly one such item, built from the
      text of a raw source under the same key. */
  lemma {:induction false} FallbackFromRaw(raw: Entries<string>)
    ensures forall e :: e in FallbackAll(raw) ==>
              |e.1| == 1 && exists t :: (e.0, t) in raw && t != "" && IsFallbackFor(e.1[0], t)
  {
    if raw != [] {
      var n := |raw| - 1;
      FallbackFromRaw(raw[..n]);
      var front := FallbackAll(raw[..n]);
      forall e | e in FallbackAll(raw)
        ensures |e.1| == 1 && exists t :: (e.0, t) in raw && t != "" && IsFallbackFor(e.1[0], t)
      {
        if e in front {
          var t :| (e.0, t) in raw[..n] && t != "" && IsFallbackFor(e.1[0], t);
          assert (e.0, t) in raw;
        } else {
          assert e == (raw[n].0, [FallbackItem(raw[n].1)]);
          assert (e.0, raw[n].1) == raw[n];
        }
      }
    }
  }

  /** Dict keys stay distinct: one fallback entry per source key. */
  lemma {:induction false} FallbackKeysDistinct(raw: Entries<string>)
    requires DistinctKeys(raw)
    ensures DistinctKeys(FallbackAll(raw))
  {
    if raw != [] {
      var n := |raw| - 1;
      assert DistinctKeys(raw[..n]);
      FallbackKeysDistinct(raw[..n]);
      FallbackFromRaw(raw[..n]);
      var front := FallbackAll(raw[..n]);
      forall i | 0 <= i < |front| ensures front[i].0 != raw[n].0 {
        assert front[i] in front;
        var t :| (front[i].0, t) in raw[..n] && t != "" && IsFallbackFor(front[i].1[0], t);
        var j :| 0 <= j < n && raw[..n][j] == (front[i].0, t);
        assert raw[j].0 != raw[n].0;
      }
      var f := FallbackAll(raw);
      var tail := if raw[n].1 != "" then [(raw[n].0, [FallbackItem(raw[n].1)])] else [];
      assert f == front + tail;
      forall i, j | 0 <= i < j < |f| ensures f[i].0 != f[j].0 {
        assert f[i] == front[i];
        if j < |front| {
          assert f[j] == front[j];
          assert front[i].0 != front[j].0;
        } else {
          assert f[j] == tail[j - |front|];
          assert f[j].0 == raw[n].0;
          assert front[i].0 != raw[n].0;
        }
      }
    }
  }

  method Fallback(raw: Entries<string>) returns (fallback: Entries<seq<Item>>)
    ensures fallback == FallbackAll(raw)
  {
    fallback := [];
    var i := 0;
    while i < |raw|
      invariant 0 <= i <= |raw|
      invariant fallback == FallbackAll(raw[..i])
    {
      var (key, text) := raw[i];
      assert raw[..i + 1][..i] == raw[..i];
      if text != "" {
        fallback := fallback + [(key, [FallbackItem(text)])];
      }
      i := i + 1;
    }
    assert raw[..|raw|] == raw;
  }

  // ---------------------------------------------------------------------
  // The whole of curate (digest.py lines 308-414)
  // ---------------------------------------------------------------------

  /** The first key whose label lookup `SOURCE_META[source_key]` fails. */
  function FirstUnlabelled(keys: seq<string>): (r: Option<string>)
    ensures r.None? <==> forall i :: 0 <= i < |keys| ==> keys[i] in SourceLabels
    ensures r.Some? ==> r.value in keys && r.value !in SourceLabels
  {
    if keys == [] then None
    else if keys[0] !in SourceLabels then Some(keys[0])
    else FirstUnlabelled(keys[1..])
  }

  /** The `try` block: call the oracle, strip the fence, parse, curate; on
      any failure, the fallback. */
  function Scored(raw: Entries<string>, rules: ContentRules, reply: LlmReply, parse: Parser): (r: Curation)
    ensures r.Curated?
    ensures r.log.PerSource? ==> Keys(r.log.counts) == Keys(r.curated)
    ensures r.log.Degraded? ==> r.curated == FallbackAll(raw)
  {
    match reply
    case Failure(e) => Curated(FallbackAll(raw), Degraded(e))
    case Answer(text) =>
      match parse(StripFences(text))
      case Err(e) => Curated(FallbackAll(raw), Degraded(e))
      case Ok(scored) =>
        CountsMatchCurated(scored, rules);
        Curated(CuratedAll(scored, rules), PerSource(CountsAll(scored, rules)))
  }

  /** `curate` as written: the label lookup that builds the prompt sits
      before the `try`, so a source unknown to `SOURCE_META` raises
      instead of degrading. */
  function CurateSpec(raw: Entries<string>, rules: ContentRules, reply: LlmReply, parse: Parser): (r: Curation)
    ensures r.Raised? ==> r.missingKey in Keys(raw) && r.missingKey !in SourceLabels
  {
    var itemsBySource := Normalised(raw);
    NormalisedKeysFromRaw(raw);
    KeysMembers(raw);
    if itemsBySource == [] then Curated([], NoContent(NoContentMessage))
    else
      match FirstUnlabelled(Keys(itemsBySource))
      case Some(k) => Raised(k)
      case None => Scored(raw, rules, reply, parse)
  }

  /** `curate` with the label looked up as elsewhere in the file
      (`SOURCE_META.get(key, {}).get("label", key)`), so nothing escapes. */
  function CurateCorrected(raw: Entries<string>, rules: ContentRules, reply: LlmReply, parse: Parser): (r: Curation)
    ensures r.Curated?
  {
    if Normalised(raw) == [] then Curated([], NoContent(NoContentMessage))
    else Scored(raw, rules, reply, parse)
  }

  method Curate(raw: Entries<string>, rules: ContentRules, reply: LlmReply, parse: Parser)
    returns (out: Curation)
    ensures out == CurateSpec(raw, rules, reply, parse)
  {
    var itemsBySource := NormaliseAll(raw);
    if itemsBySource == [] {
      return Curated([], NoContent(NoContentMessage));
    }
    var missing := LookUpLabels(Keys(itemsBySource));
    if missing.Some? {
      return Raised(missing.value);
    }
    out := ScoredRun(raw, rules, reply, parse);
  }

  /** Building the prompt looks up the label of every source in turn; the
      first unknown key raises. */
  method LookUpLabels(keys: seq<string>) returns (missing: Option<string>)
    ensures missing == FirstUnlabelled(keys)
  {
    var i := 0;
    while i < |keys|
      invariant 0 <= i <= |keys|
      invariant forall j :: 0 <= j < i ==> keys[j] in SourceLabels
    {
      if keys[i] !in SourceLabels {
        FirstUnlabelledIs(keys, i);
        return Some(keys[i]);
      }
      i := i + 1;
    }
    return None;
  }

  /** The `try` block and its `except` branch. */
  method ScoredRun(raw: Entries<string>, rules: ContentRules, reply: LlmReply, parse: Parser)
    returns (out: Curation)
    ensures out == Scored(raw, rules, reply, parse)
  {
    match reply {
      case Failure(e) =>
        var fallback := Fallback(raw);
        out := Curated(fallback, Degraded(e));
      case Answer(text) =>
        var response := StripFences(text);
        match parse(response) {
          case Err(e) =>
            var fallback := Fallback(raw);
            out := Curated(fallback, Degraded(e));
          case Ok(scored) =>
            var curated, counts := CurateResponse(scored, rules);
            out := Curated(curated, PerSource(counts));
        }
    }
  }

  lemma {:induction false} FirstUnlabelledIs(keys: seq<string>, i: nat)
    requires i < |keys| && keys[i] !in SourceLabels
    requires forall j :: 0 <= j < i ==> keys[j] in SourceLabels
    ensures FirstUnlabelled(keys) == Some(keys[i])
  {
    if i > 0 {
      FirstUnlabelledIs(keys[1..], i - 1);
    }
  }

  // ---------------------------------------------------------------------
  // Properties of the whole
  // ---------------------------------------------------------------------

  /** Empty input is terminal: when no source yields items the result is
      `({}, {"error": "No content to curate"})` whatever the oracle would
      have said, and only then is that the result. */
  lemma NoContentIsTerminal(raw: Entries<string>, rules: ContentRules, reply: LlmReply, parse: Parser)
    ensures Normalised(raw) == [] ==>
              CurateSpec(raw, rules, reply, parse) == Curated([], NoContent(NoContentMessage))
    ensures (CurateSpec(raw, rules, reply, parse).Curated? &&
             CurateSpec(raw, rules, reply, parse).log.NoContent?) ==> Normalised(raw) == []
    ensures (forall e :: e in raw ==> e.1 == "") ==>
              CurateSpec(raw, rules, reply, parse) == Curated([], NoContent(NoContentMessage))
  {
    NothingToCurate(raw);
  }

  /** Degradation: when the oracle raises or its reply does not parse, the
      result is the fallback map with the triggering error in the log. */
  lemma DegradesOnFailure(raw: Entries<string>, rules: ContentRules, reply: LlmReply, parse: Parser)
    requires Normalised(raw) != []
    requires forall e :: e in raw ==> e.0 in SourceLabels
    requires reply.Failure? || parse(StripFences(reply.text)).Err?
    ensures CurateSpec(raw, rules, reply, parse) ==
              Curated(FallbackAll(raw),
                      Degraded(if reply.Failure? then reply.error else parse(StripFences(reply.text)).error))
  {
    LabelledSourcesPass(raw);
  }

  /** After a scored run every curated source has a log entry giving the
      number of items returned and the number kept, and every key the
      oracle returned is curated, whether or not it was asked about. */
  lemma ScoredRunLog(raw: Entries<string>, rules: ContentRules, reply: LlmReply, parse: Parser)
    requires reply.Answer? && parse(StripFences(reply.text)).Ok?
    requires CurateSpec(raw, rules, reply, parse).Curated?
    requires !CurateSpec(raw, rules, reply, parse).log.NoContent?
    ensures var scored := parse(StripFences(reply.text)).value;
      var out := CurateSpec(raw, rules, reply, parse);
      && out.log.PerSource?
      && Keys(out.curated) == Keys(scored) && Keys(out.log.counts) == Keys(scored)
      && forall i :: 0 <= i < |scored| ==>
           out.log.counts[i].1 == Counts(|scored[i].1|, |out.curated[i].1|)
  {
    var scored := parse(StripFences(reply.text)).value;
    assert CurateSpec(raw, rules, reply, parse) == Scored(raw, rules, reply, parse);
    CountsMatchCurated(scored, rules);
  }

  lemma {:induction false} NormalisedKeysFromRaw(raw: Entries<string>)
    ensures forall k :: k in Keys(Normalised(raw)) ==> exists e :: e in raw && e.0 == k
  {
    NormalisedMembers(raw);
    forall k | k in Keys(Normalised(raw)) ensures exists e :: e in raw && e.0 == k {
      var ks := Keys(Normalised(raw));
      var i :| 0 <= i < |ks| && ks[i] == k;
      var e := Normalised(raw)[i];
      assert e in Normalised(raw);
      var t :| (e.0, t) in raw && e.1 == NormaliseSource(t);
    }
  }

  /** With every raw key a known source and something to curate, `curate`
      is its `try` block. */
  lemma KnownSourcesScored(raw: Entries<string>, rules: ContentRules, reply: LlmReply, parse: Parser)
    requires Normalised(raw) != []
    requires forall e :: e in raw ==> e.0 in SourceLabels
    ensures CurateSpec(raw, rules, reply, parse) == Scored(raw, rules, reply, parse)
  {
    LabelledSourcesPass(raw);
  }

  lemma LabelledSourcesPass(raw: Entries<string>)
    requires forall e :: e in raw ==> e.0 in SourceLabels
    ensures FirstUnlabelled(Keys(Normalised(raw))) == None
  {
    NormalisedKeysFromRaw(raw);
  }

  /** The two versions agree whenever every raw key is a known source,
      which is what the fetch stage produces. */
  lemma CorrectedAgreesOnKnownSources(raw: Entries<string>, rules: ContentRules, reply: LlmReply, parse: Parser)
    requires forall e :: e in raw ==> e.0 in SourceLabels
    ensures CurateSpec(raw, rules, reply, parse) == CurateCorrected(raw, rules, reply, parse)
  {
    LabelledSourcesPass(raw);
  }

  /** As written, a raw source unknown to `SOURCE_META` escapes the
      fallback: with the oracle down (a timeout, say), `curate` raises
      `KeyError` where the corrected version degrades to the fallback. */
  lemma UnknownSourceEscapesFallback(key: string, text: string, rules: ContentRules, error: string, parse: Parser)
    requires key !in SourceLabels
    requires NormaliseSource(text) != []
    ensures CurateSpec([(key, text)], rules, Failure(error), parse) == Raised(key)
    ensures CurateCorrected([(key, text)], rules, Failure(error), parse)
              == Curated([(key, [FallbackItem(text)])], Degraded(error))
  {
    SingleSource(key, text);
    assert Keys([(key, NormaliseSource(text))]) == [key];
  }

  /** What a raw map with a single source normalises and falls back to. */
  lemma SingleSource(key: string, text: string)
    requires text != "" && NormaliseSource(text) != []
    ensures Normalised([(key, text)]) == [(key, NormaliseSource(text))]
    ensures FallbackAll([(key, text)]) == [(key, [FallbackItem(text)])]
  {
    assert [(key, text)][..0] == [];
  }

  /** A text that is one trimmed dash line is one item. */
  lemma SingleDashLine(text: string)
    requires Stripped(text) && StartsWith(text, "-") && '\n' !in text
    ensures NormaliseSource(text) == [text]
  {
    SplitLinesNoNewline(text);
    StripStripped(text);
    assert DashLinesOf([text]) == [text];
    NormaliseDashText(text);
  }

  /** The oracle's keys are not checked against the request: a key it
      invents is curated like any other. */
  lemma InventedKeyIsCurated(raw: Entries<string>, rules: ContentRules, item: Item)
    requires Normalised(raw) != []
    requires forall e :: e in raw ==> e.0 in SourceLabels
    requires "invented" !in rules.alwaysInclude && ScoreOf(item) >= rules.threshold
    requires rules.maxItemsPerSection >= 1
    ensures var parse: Parser := _ => Ok([("invented", [item])]);
      CurateSpec(raw, rules, Answer("{}"), parse)
        == Curated([("invented", [item])], PerSource([("invented", Counts(1, 1))]))
  {
    var parse: Parser := _ => Ok([("invented", [item])]);
    var scored := [("invented", [item])];
    KnownSourcesScored(raw, rules, Answer("{}"), parse);
    assert parse(StripFences("{}")) == Ok(scored);
    CuratedSingle("invented", item, rules);
    assert CuratedAll(scored, rules) == [("invented", [item])];
    assert CountsAll(scored, rules) == [("invented", Counts(1, 1))];
  }

  lemma CuratedSingle(key: string, item: Item, rules: ContentRules)
    requires key in rules.alwaysInclude || ScoreOf(item) >= rules.threshold
    requires rules.maxItemsPerSection >= 1
    ensures CurateSource(key, [item], rules) == [item]
  {
    assert [item][..0] == [];
    assert Passing([item], key in rules.alwaysInclude, rules.threshold) == [item];
    assert SortDesc([item], ScoreOf) == [item];
  }

  /** The worked example, part one: with threshold 0.6, "simon" always
      included and at most three items per source, "simon"'s items scored
      0.9, 0.85, 0.3, 0.2, 0.95 give the three best, highest first. */
  lemma WorkedExampleAlwaysIncluded(a: Item, b: Item, c: Item, d: Item, e: Item)
    requires ScoreOf(a) == 0.9 && ScoreOf(b) == 0.85 && ScoreOf(c) == 0.3
    requires ScoreOf(d) == 0.2 && ScoreOf(e) == 0.95
    ensures CurateSource("simon", [a, b, c, d, e], ContentRules(0.6, {"simon"}, 3)) == [e, a, b]
  {
    PassingFacts([a, b, c, d, e], true, 0.6);
    WorkedSort(a, b, c, d, e);
  }

  lemma WorkedSort(a: Item, b: Item, c: Item, d: Item, e: Item)
    requires ScoreOf(a) == 0.9 && ScoreOf(b) == 0.85 && ScoreOf(c) == 0.3
    requires ScoreOf(d) == 0.2 && ScoreOf(e) == 0.95
    ensures SortDesc([a, b, c, d, e], ScoreOf) == [e, a, b, c, d]
  {
    assert [a, b, c, d, e][1..] == [b, c, d, e];
    WorkedSortTail(b, c, d, e);
    assert [e, b, c, d][1..] == [b, c, d];
    assert InsertDesc(a, [b, c, d], ScoreOf) == [a, b, c, d];
  }

  lemma WorkedSortTail(b: Item, c: Item, d: Item, e: Item)
    requires ScoreOf(b) == 0.85 && ScoreOf(c) == 0.3
    requires ScoreOf(d) == 0.2 && ScoreOf(e) == 0.95
    ensures SortDesc([b, c, d, e], ScoreOf) == [e, b, c, d]
  {
    assert [b, c, d, e][1..] == [c, d, e];
    WorkedSortLast(c, d, e);
    assert [e, c, d][1..] == [c, d];
    assert InsertDesc(b, [c, d], ScoreOf) == [b, c, d];
  }

  lemma WorkedSortLast(c: Item, d: Item, e: Item)
    requires ScoreOf(c) == 0.3 && ScoreOf(d) == 0.2 && ScoreOf(e) == 0.95
    ensures SortDesc([c, d, e], ScoreOf) == [e, c, d]
  {
    assert [c, d, e][1..] == [d, e];
    assert [d, e][1..] == [e];
    assert SortDesc([e], ScoreOf) == [e];
    assert InsertDesc(d, [e], ScoreOf) == [e, d];
    assert [e, d][1..] == [d];
    assert InsertDesc(c, [d], ScoreOf) == [c, d];
  }

  /** The worked example, part two: "techcrunch" is not always included,
      so of its items scored 0.9, 0.4, 0.7 the one below the threshold is
      dropped and the others come highest first. */
  lemma WorkedExampleThreshold(x: Item, y: Item, z: Item)
    requires ScoreOf(x) == 0.9 && ScoreOf(y) == 0.4 && ScoreOf(z) == 0.7
    ensures CurateSource("techcrunch", [x, y, z], ContentRules(0.6, {"simon"}, 3)) == [x, z]
  {
    var items := [x, y, z];
    assert items[..2] == [x, y] && [x, y][..1] == [x] && [x][..0] == [];
    assert Passing([x], false, 0.6) == [x];
    assert Passing([x, y], false, 0.6) == [x];
    assert Passing(items, false, 0.6) == [x, z];
    assert InsertDesc(x, [z], ScoreOf) == [x, z];
    assert [x, z][1..] == [z];
    assert SortDesc([x, z], ScoreOf) == [x, z];
  }
}

=== FILE: editorial.dfy ===
/** The parts of the summarise stage that select items: the high-tier
    highlights `build_editorial_intro` gathers across sources (digest.py
    lines 431-450) and the prompt contents of `summarise_section` (lines
    459-490). Prompt wording and the language model stay outside: the
    model's reply is a function of the highlights or of the section's
    prompt contents. */
module Editorial {
  import opened Wrappers
  import opened Text
  import opened Items

  const HighTier := "high"
  const MediumTier := "medium"
  const LowTier := "low"

  /** The intro prompt lists at most this many highlights. */
  const PromptHighlights := 6

  /** `item.get("tier") == "high"`. */
  predicate IsHigh(item: Item) {
    item.tier == Some(HighTier)
  }

  // ---------------------------------------------------------------------
  // The editorial intro
  // ---------------------------------------------------------------------

  /** One prompt line: the source label, the title and the score. */
  datatype Highlight = Highlight(sourceLabel: string, title: string, score: real)

  /** The line for a high-tier item, or the key whose lookup raises
      `KeyError`: the f-string reads `item['title']` before
      `item['score']`. */
  function HighlightOf(key: string, item: Item): Result<Highlight, string> {
    match item.title
    case None => Err("title")
    case Some(title) =>
      match item.score
      case None => Err("score")
      case Some(score) => Ok(Highlight(Label(key), title, score))
  }

  /** The `top_items` list after the nested loop has visited `visited`
      (source keys paired with items, in visiting order), or the first
      `KeyError`. */
  function HighlightsOf(visited: seq<(string, Item)>): (r: Result<seq<Highlight>, string>)
    ensures r.Ok? ==> |r.value| <= |visited|
  {
    if visited == [] then Ok([])
    else
      var n := |visited| - 1;
      Extend(HighlightsOf(visited[..n]), visited[n])
  }

  /** One turn of the inner loop: a high-tier item adds its line, any
      other item nothing, and a `KeyError` stops everything. */
  function Extend(acc: Result<seq<Highlight>, string>, p: (string, Item)): (r: Result<seq<Highlight>, string>)
    ensures r.Ok? ==> acc.Ok? && |r.value| <= |acc.value| + 1
    ensures acc.Err? ==> r == acc
  {
    match acc
    case Err(e) => Err(e)
    case Ok(top) =>
      if !IsHigh(p.1) then Ok(top)
      else
        match HighlightOf(p.0, p.1)
        case Err(e) => Err(e)
        case Ok(h) => Ok(top + [h])
  }

  lemma HighlightsOfSnoc(visited: seq<(string, Item)>, p: (string, Item))
    ensures HighlightsOf(visited + [p]) == Extend(HighlightsOf(visited), p)
  {
    assert (visited + [p])[..|visited|] == visited;
  }

  function Highlights(curated: Entries<seq<Item>>): Result<seq<Highlight>, string> {
    HighlightsOf(Flatten(curated))
  }

  /** The intro for the gathered highlights: empty when there are none
      (and the model is not asked), otherwise the model's reply to the
      first six, or empty when the call fails. */
  function IntroFrom(top: seq<Highlight>, oracle: seq<Highlight> -> LlmReply): (r: string)
    ensures r != [] ==> top != [] && oracle(Take(top, PromptHighlights)) == Answer(r)
  {
    if top == [] then ""
    else
      match oracle(Take(top, PromptHighlights))
      case Answer(text) => text
      case Failure(_) => ""
  }

  /** `build_editorial_intro`: the intro, or the `KeyError` that escapes
      while the highlights are gathered. */
  function EditorialIntro(curated: Entries<seq<Item>>, oracle: seq<Highlight> -> LlmReply): Result<string, string> {
    match Highlights(curated)
    case Err(e) => Err(e)
    case Ok(top) => Ok(IntroFrom(top, oracle))
  }

  method BuildEditorialIntro(curated: Entries<seq<Item>>, oracle: seq<Highlight> -> LlmReply)
    returns (r: Result<string, string>)
    ensures r == EditorialIntro(curated, oracle)
  {
    var topItems: seq<Highlight> := [];
    var i := 0;
    while i < |curated|
      invariant 0 <= i <= |curated|
      invariant HighlightsOf(Flatten(curated[..i])) == Ok(topItems)
    {
      assert curated[..i + 1][..i] == curated[..i];
      var gathered := GatherSource(Flatten(curated[..i]), curated[i].0, curated[i].1, topItems);
      match gathered {
        case Err(e) =>
          FlattenPrefix(curated, i + 1);
          ErrorSticks(Flatten(curated[..i + 1]), Flatten(curated));
          return Err(e);
        case Ok(more) =>
          topItems := more;
      }
      i := i + 1;
    }
    assert curated[..i] == curated;
    r := Ok(IntroFrom(topItems, oracle));
  }

  /** The inner loop, over the items of one source, extending the
      highlights gathered from the sources `before` it. */
  method GatherSource(ghost before: seq<(string, Item)>, key: string, items: seq<Item>, top: seq<Highlight>)
    returns (r: Result<seq<Highlight>, string>)
    requires HighlightsOf(before) == Ok(top)
    ensures r == HighlightsOf(before + Tagged(key, items))
  {
    var topItems := top;
    assert before + Tagged(key, items[..0]) == before;
    var j := 0;
    while j < |items|
      invariant 0 <= j <= |items|
      invariant HighlightsOf(before + Tagged(key, items[..j])) == Ok(topItems)
    {
      ghost var seen := VisitOne(before, key, items, j);
      if IsHigh(items[j]) {
        match HighlightOf(key, items[j]) {
          case Err(e) =>
            assert Tagged(key, items[..j + 1]) <= Tagged(key, items);
            ErrorSticks(seen, before + Tagged(key, items));
            return Err(e);
          case Ok(h) =>
            topItems := topItems + [h];
        }
      }
      j := j + 1;
    }
    assert items[..j] == items;
    r := Ok(topItems);
  }

  /** Visiting the next item of a source extends the visited items by
      that one pair. */
  lemma VisitOne(before: seq<(string, Item)>, key: string, items: seq<Item>, j: nat) returns (seen: seq<(string, Item)>)
    requires j < |items|
    ensures seen == before + Tagged(key, items[..j + 1])
    ensures HighlightsOf(seen) == Extend(HighlightsOf(before + Tagged(key, items[..j])), (key, items[j]))
  {
    seen := before + Tagged(key, items[..j + 1]);
    var prev := before + Tagged(key, items[..j]);
    assert seen == prev + [(key, items[j])];
    HighlightsOfSnoc(prev, (key, items[j]));
  }

  lemma {:induction false} FlattenPrefix(curated: Entries<seq<Item>>, k: nat)
    requires k <= |curated|
    ensures Flatten(curated[..k]) <= Flatten(curated)
    decreases |curated| - k
  {
    if k < |curated| {
      FlattenPrefix(curated, k + 1);
      assert curated[..k + 1][..k] == curated[..k];
    } else {
      assert curated[..k] == curated;
    }
  }

  /** Once a lookup has raised, visiting more items changes nothing. */
  lemma {:induction false} ErrorSticks(visited: seq<(string, Item)>, more: seq<(string, Item)>)
    requires visited <= more
    requires HighlightsOf(visited).Err?
    ensures HighlightsOf(more) == HighlightsOf(visited)
    decreases |more|
  {
    if |more| > |visited| {
      var n := |more| - 1;
      assert visited <= more[..n];
      ErrorSticks(visited, more[..n]);
    } else {
      assert visited == more;
    }
  }

  /** The high-tier items among those visited, in order: a reading from
      the front, independent of the loop's. */
  function HighItems(visited: seq<(string, Item)>): seq<(string, Item)> {
    if visited == [] then []
    else (if IsHigh(visited[0].1) then [visited[0]] else []) + HighItems(visited[1..])
  }

  lemma {:induction false} HighItemsAppend(a: seq<(string, Item)>, b: seq<(string, Item)>)
    ensures HighItems(a + b) == HighItems(a) + HighItems(b)
  {
    if a == [] {
      assert a + b == b;
    } else {
      var head := if IsHigh(a[0].1) then [a[0]] else [];
      HighItemsAppend(a[1..], b);
      assert (a + b)[0] == a[0];
      assert (a + b)[1..] == a[1..] + b;
      calc {
        HighItems(a + b);
        head + HighItems(a[1..] + b);
        head + (HighItems(a[1..]) + HighItems(b));
        head + HighItems(a[1..]) + HighItems(b);
        HighItems(a) + HighItems(b);
      }
    }
  }

  lemma {:induction false} HighItemsMembers(visited: seq<(string, Item)>)
    ensures forall p :: p in HighItems(visited) <==> p in visited && IsHigh(p.1)
  {
    if visited != [] {
      HighItemsMembers(visited[1..]);
      assert visited == [visited[0]] + visited[1..];
    }
  }

  lemma {:induction false} NoHighItems(visited: seq<(string, Item)>)
    requires forall p :: p in visited ==> !IsHigh(p.1)
    ensures HighItems(visited) == []
  {
    if visited != [] {
      assert visited[0] in visited;
      assert forall p :: p in visited[1..] ==> p in visited;
      NoHighItems(visited[1..]);
    }
  }

  /** Gathering fails exactly when some high-tier item lacks a title or a
      score; items of other tiers are never looked into. */
  lemma {:induction false} HighlightsFailIff(visited: seq<(string, Item)>)
    ensures HighlightsOf(visited).Err?
        <==> exists p :: p in visited && IsHigh(p.1) && (p.1.title.None? || p.1.score.None?)
  {
    if visited != [] {
      var n := |visited| - 1;
      HighlightsFailIff(visited[..n]);
      assert visited == visited[..n] + [visited[n]];
      forall p | p in visited
        ensures p in visited[..n] || p == visited[n]
      {
      }
    }
  }

  /** When gathering succeeds, the highlights are the high-tier items in
      visiting order, one each, each with its source's label, its title
      and its score. */
  lemma {:induction false} HighlightsAreHighItems(visited: seq<(string, Item)>, top: seq<Highlight>)
    requires HighlightsOf(visited) == Ok(top)
    ensures |top| == |HighItems(visited)|
    ensures forall k :: 0 <= k < |top| ==>
              var p := HighItems(visited)[k];
              p.1.title == Some(top[k].title) && p.1.score == Some(top[k].score)
              && top[k].sourceLabel == Label(p.0)
  {
    if visited != [] {
      var n := |visited| - 1;
      var last := visited[n];
      assert visited == visited[..n] + [last];
      HighItemsAppend(visited[..n], [last]);
      assert HighItems([last]) == (if IsHigh(last.1) then [last] else []) + HighItems([]);
      match HighlightsOf(visited[..n])
      case Err(_) =>
      case Ok(prev) =>
        HighlightsAreHighItems(visited[..n], prev);
    }
  }

  /** With no high-tier item the intro is empty whatever the model would
      say: the model is not asked. */
  lemma NoHighItemsNoIntro(curated: Entries<seq<Item>>, oracle: seq<Highlight> -> LlmReply)
    requires forall p :: p in Flatten(curated) ==> !IsHigh(p.1)
    ensures EditorialIntro(curated, oracle) == Ok("")
  {
    HighlightsFailIff(Flatten(curated));
    var top := Highlights(curated).value;
    HighlightsAreHighItems(Flatten(curated), top);
    NoHighItems(Flatten(curated));
  }

  /** The model sees the first six highlights and nothing after them. */
  lemma IntroSeesFirstSix(top1: seq<Highlight>, top2: seq<Highlight>, oracle: seq<Highlight> -> LlmReply)
    requires Take(top1, PromptHighlights) == Take(top2, PromptHighlights)
    ensures IntroFrom(top1, oracle) == IntroFrom(top2, oracle)
  {
    if top1 == [] {
      assert |Take(top2, PromptHighlights)| == 0;
    }
    if top2 == [] {
      assert |Take(top1, PromptHighlights)| == 0;
    }
  }

  // ---------------------------------------------------------------------
  // Sections by tier
  // ---------------------------------------------------------------------

  /** `[i for i in items if i.get("tier") == tier]`. */
  function WithTier(items: seq<Item>, tier: string): seq<Item> {
    if items == [] then []
    else (if items[0].tier == Some(tier) then [items[0]] else []) + WithTier(items[1..], tier)
  }

  /** A tier list keeps item order: the list for two runs of items is the
      list for the first followed by the list for the second. */
  lemma {:induction false} WithTierAppend(a: seq<Item>, b: seq<Item>, tier: string)
    ensures WithTier(a + b, tier) == WithTier(a, tier) + WithTier(b, tier)
  {
    if a == [] {
      assert a + b == b;
    } else {
      var head := if a[0].tier == Some(tier) then [a[0]] else [];
      WithTierAppend(a[1..], b, tier);
      assert (a + b)[0] == a[0];
      assert (a + b)[1..] == a[1..] + b;
      assert head + (WithTier(a[1..], tier) + WithTier(b, tier))
          == head + WithTier(a[1..], tier) + WithTier(b, tier);
    }
  }

  /** One item is in its tier's list and in no other. */
  lemma WithTierSingle(x: Item, tier: string)
    ensures WithTier([x], tier) == if x.tier == Some(tier) then [x] else []
  {
    assert [x][1..] == [];
  }

  /** The items in none of the three tiers: no tier, or another word. */
  function Untiered(items: seq<Item>): seq<Item> {
    if items == [] then []
    else
      var t := items[0].tier;
      (if t != Some(HighTier) && t != Some(MediumTier) && t != Some(LowTier) then [items[0]] else [])
      + Untiered(items[1..])
  }

  datatype TierSplit = TierSplit(high: seq<Item>, medium: seq<Item>, low: seq<Item>)

  /** The `high`, `medium` and `low` lists, each holding only items of its
      tier. */
  function SplitByTier(items: seq<Item>): (r: TierSplit)
    ensures forall x :: x in r.high ==> x.tier == Some(HighTier)
    ensures forall x :: x in r.medium ==> x.tier == Some(MediumTier)
    ensures forall x :: x in r.low ==> x.tier == Some(LowTier)
  {
    WithTierMembers(items, HighTier);
    WithTierMembers(items, MediumTier);
    WithTierMembers(items, LowTier);
    TierSplit(WithTier(items, HighTier), WithTier(items, MediumTier), WithTier(items, LowTier))
  }

  /** An item lands in a tier's list exactly when it carries that tier. */
  lemma {:induction false} WithTierMembers(items: seq<Item>, tier: string)
    ensures forall x :: x in WithTier(items, tier) <==> x in items && x.tier == Some(tier)
  {
    if items != [] {
      WithTierMembers(items[1..], tier);
      assert items == [items[0]] + items[1..];
    }
  }

  /** The three tier lists and the untiered items together are the items,
      each exactly once: the split loses and duplicates nothing. */
  lemma {:induction false} SplitPartitions(items: seq<Item>)
    ensures multiset(WithTier(items, HighTier)) + multiset(WithTier(items, MediumTier))
            + multiset(WithTier(items, LowTier)) + multiset(Untiered(items))
         == multiset(items)
  {
    if items != [] {
      var rest := items[1..];
      SplitPartitions(rest);
      PartitionStep(items, WithTier(rest, HighTier), WithTier(rest, MediumTier), WithTier(rest, LowTier), Untiered(rest));
    }
  }

  /** The sources whose raw text is sent instead of the item list. */
  const EmailSources: set<string> := {"tldr", "lenny"}

  /** At most this many characters of an email source's raw text go to
      the model. */
  const SectionTextCap := 3000

  /** The body of the section prompt: the raw text of an email source, or
      the items (their titles and urls). */
  datatype SectionContent = RawText(text: string) | ItemList(items: seq<Item>)

  /** What a section prompt carries besides its fixed wording: the source
      label, the tier lists and the content. */
  datatype SectionPrompt = SectionPrompt(sourceLabel: string, tiers: TierSplit, content: SectionContent)

  /** The prompt contents: an email source with raw text sends its first
      3000 characters, any other source its items. */
  function SectionPromptOf(key: string, items: seq<Item>, rawText: string): (p: SectionPrompt)
    ensures p.sourceLabel == Label(key) && p.tiers == SplitByTier(items)
    ensures p.content.RawText? <==> key in EmailSources && |rawText| > 0
    ensures p.content.RawText? ==>
              |p.content.text| <= SectionTextCap && StartsWith(rawText, p.content.text)
              && (|rawText| <= SectionTextCap ==> p.content.text == rawText)
    ensures p.content.ItemList? ==> p.content.items == items
  {
    var content :=
      if key in EmailSources && |rawText| > 0 then RawText(Take(rawText, SectionTextCap))
      else ItemList(items);
    SectionPrompt(Label(key), SplitByTier(items), content)
  }

  /** Adding one item to the front of the split adds it to exactly one of
      the four lists. */
  lemma PartitionStep(items: seq<Item>, h: seq<Item>, m: seq<Item>, l: seq<Item>, u: seq<Item>)
    requires items != []
    requires multiset(h) + multiset(m) + multiset(l) + multiset(u) == multiset(items[1..])
    ensures var x, t := items[0], items[0].tier;
      multiset((if t == Some(HighTier) then [x] else []) + h)
      + multiset((if t == Some(MediumTier) then [x] else []) + m)
      + multiset((if t == Some(LowTier) then [x] else []) + l)
      + multiset((if t != Some(HighTier) && t != Some(MediumTier) && t != Some(LowTier) then [x] else []) + u)
      == multiset(items)
  {
    var x, t := items[0], items[0].tier;
    assert items == [x] + items[1..];
    var hx := if t == Some(HighTier) then [x] else [];
    var mx := if t == Some(MediumTier) then [x] else [];
    var lx := if t == Some(LowTier) then [x] else [];
    var ux := if t != Some(HighTier) && t != Some(MediumTier) && t != Some(LowTier) then [x] else [];
    assert multiset(hx) + multiset(mx) + multiset(lx) + multiset(ux) == multiset{x};
    calc {
      multiset(hx + h) + multiset(mx + m) + multiset(lx + l) + multiset(ux + u);
      (multiset(hx) + multiset(mx) + multiset(lx) + multiset(ux))
        + (multiset(h) + multiset(m) + multiset(l) + multiset(u));
      multiset{x} + multiset(items[1..]);
      multiset(items);
    }
  }


  /** `summarise_section`: nothing for a source without items, otherwise
      the model's reply to the section prompt, or the failure notice. An
      empty section means no items or an empty reply. */
  function SummariseSection(key: string, items: seq<Item>, rawText: string, oracle: SectionPrompt -> LlmReply): (r: string)
    ensures |r| == 0 ==> items == [] || oracle(SectionPromptOf(key, items, rawText)) == Answer(r)
  {
    if items == [] then ""
    else
      match oracle(SectionPromptOf(key, items, rawText))
      case Answer(text) => text
      case Failure(e) => "[Summary unavailable: " + e + "]"
  }

  /** A failed call is reported inside the section, never as an empty
      one. */
  lemma SectionFailureVisible(key: string, items: seq<Item>, rawText: string, oracle: SectionPrompt -> LlmReply)
    requires items != [] && oracle(SectionPromptOf(key, items, rawText)).Failure?
    ensures SummariseSection(key, items, rawText, oracle) != ""
    ensures StartsWith(SummariseSection(key, items, rawText, oracle), "[Summary unavailable: ")
  {
    var r := SummariseSection(key, items, rawText, oracle);
    assert r[..22] == "[Summary unavailable: ";
  }
}

=== FILE: fences.dfy ===
/** Removal of the Markdown code fence a language model may wrap around
    the JSON it was asked for (digest.py lines 381-382). */
module Fences {
  import opened Text

  const Fence := "```"

  /** `re.sub(r"^```(?:json)?\s*", "", t)`: `^` anchors at the start of
      the text only, the optional `json` tag is taken when present, and
      the whitespace after it goes too. */
  function DropOpeningFence(t: string): string {
    if StartsWith(t, Fence) then
      var u := t[3..];
      TrimLeft(if StartsWith(u, "json") then u[4..] else u)
    else t
  }

  /** `re.sub(r"\s*```$", "", t)`: the fence must close the text (or stand
      just before a final newline, where `$` also matches), and the run of
      whitespace before it is removed with it. */
  function DropClosingFence(t: string): string {
    if EndsWith(t, Fence) then TrimRight(t[..|t| - 3])
    else if EndsWith(t, Fence + "\n") then TrimRight(t[..|t| - 4]) + "\n"
    else t
  }

  /** The response text after both substitutions, each applied to the
      stripped text as the source does. */
  function StripFences(response: string): (r: string)
    ensures Stripped(r)
  {
    var s := Strip(DropOpeningFence(Strip(response)));
    ClosingFenceKeepsStripped(s);
    DropClosingFence(s)
  }

  lemma ClosingFenceKeepsStripped(s: string)
    requires Stripped(s)
    ensures Stripped(DropClosingFence(s))
  {
    if EndsWith(s, Fence) {
      var p := TrimRight(s[..|s| - 3]);
      if p != [] {
        TrimRightPrefix(s[..|s| - 3]);
        assert p[0] == s[0];
      }
    }
  }

  /** Text that carries no fence is only stripped. */
  lemma UnfencedUnchanged(response: string)
    requires !StartsWith(Strip(response), Fence)
    requires !EndsWith(Strip(response), Fence)
    ensures StripFences(response) == Strip(response)
  {
    StripStripped(Strip(response));
  }

  /** A body wrapped in a fence, tagged `json` or not, comes back out
      exactly. */
  lemma FencedRoundTrip(body: string, tagged: bool)
    requires Stripped(body)
    ensures StripFences(Fence + (if tagged then "json" else "") + "\n" + body + "\n" + Fence) == body
  {
    var tag := if tagged then "json" else "";
    var rest := body + "\n" + Fence;
    var wrapped := Fence + tag + "\n" + body + "\n" + Fence;
    assert wrapped == Fence + (tag + ("\n" + rest));
    FencedIsStripped(tag, rest);
    OpeningFenceOf(tag, "\n", rest);
    ClosingRoundTrip(body);
    assert Strip(DropOpeningFence(Strip(wrapped))) == Strip(TrimLeft(rest));
  }

  lemma FencedIsStripped(tag: string, rest: string)
    requires EndsWith(rest, Fence)
    ensures Strip(Fence + (tag + ("\n" + rest))) == Fence + (tag + ("\n" + rest))
  {
    var w := Fence + (tag + ("\n" + rest));
    assert w[0] == '`';
    assert w[|w| - 1] == rest[|rest| - 1] == '`';
    StripStripped(w);
  }

  lemma ClosingRoundTrip(body: string)
    requires Stripped(body)
    ensures DropClosingFence(Strip(TrimLeft(body + "\n" + Fence))) == body
  {
    var rest := body + "\n" + Fence;
    if body == [] {
      assert rest == "\n" + Fence;
      SpacesTrimLeft("\n", Fence);
      assert TrimLeft(rest) == Fence;
      assert DropClosingFence(Fence) == "";
    } else {
      assert rest[0] == body[0];
      assert TrimLeft(rest) == rest;
      assert rest[|rest| - 1] == '`';
      StripStripped(rest);
      ClosingFenceAfterLine(body);
    }
  }

  lemma ClosingFenceAfterLine(body: string)
    requires Stripped(body)
    ensures DropClosingFence(body + "\n" + Fence) == body
  {
    var w := body + "\n" + Fence;
    assert EndsWith(w, Fence);
    var p := body + "\n";
    assert w[..|w| - 3] == p;
    assert IsSpace(p[|p| - 1]);
    assert p[..|p| - 1] == body;
    assert TrimRight(p) == TrimRight(body);
  }

  /** Leading whitespace makes no difference to `lstrip`. */
  lemma {:induction false} SpacesTrimLeft(w: string, x: string)
    requires forall i :: 0 <= i < |w| ==> IsSpace(w[i])
    ensures TrimLeft(w + x) == TrimLeft(x)
  {
    if w != [] {
      var s := w + x;
      assert s[0] == w[0] && s[1..] == w[1..] + x;
      SpacesTrimLeft(w[1..], x);
    } else {
      assert w + x == x;
    }
  }

  /** The opening substitution drops the fence, the optional `json` tag
      and the whole run of whitespace after them. Without a tag the run
      must be non-empty, or a text starting `json` would lose that word. */
  lemma OpeningFenceOf(tag: string, w: string, rest: string)
    requires tag == "json" || tag == ""
    requires forall i :: 0 <= i < |w| ==> IsSpace(w[i])
    requires tag == "json" || w != []
    ensures DropOpeningFence(Fence + (tag + (w + rest))) == TrimLeft(rest)
  {
    var t := Fence + (tag + (w + rest));
    assert StartsWith(t, Fence);
    var u := t[3..];
    assert u == tag + (w + rest);
    if tag == "json" {
      assert StartsWith(u, "json");
      assert u[4..] == w + rest;
    } else {
      assert u == w + rest;
      assert IsSpace(u[0]) && !IsSpace("json"[0]);
      assert !StartsWith(u, "json");
    }
    SpacesTrimLeft(w, rest);
  }
}

=== FILE: items.dfy ===
/** The values that flow between the pipeline's stages: scored items as
    the relevance oracle returns them, the curation rules of the user
    profile, and the fixed table of known sources. */
module Items {
  import opened Wrappers

  /** One scored item, a JSON object in the source: every field may be
      absent. Scores are only compared and sorted, never computed with, so
      a `real` stands for the JSON number. The `index` field the oracle is
      asked for is never read and is not modelled. */
  datatype Item = Item(
    title: Option<string>,
    url: Option<string>,
    score: Option<real>,
    tier: Option<string>,
    category: Option<string>,
    rationale: Option<string>)

  /** `item.get("score", 0)`: a missing score counts as 0. */
  function ScoreOf(item: Item): real {
    item.score.GetOr(0.0)
  }

  /** The `content_rules` part of the user profile. The identity and the
      interest lists only feed prompt text and are not modelled. */
  datatype ContentRules = ContentRules(
    threshold: real,
    alwaysInclude: set<string>,
    maxItemsPerSection: int)

  /** What `llm_call` does: returns the reply text or raises. The model
      and the prompt it is sent stay outside the model. */
  datatype LlmReply = Answer(text: string) | Failure(error: string)

  /** Python dicts keep insertion order, and that order is observable (it
      breaks ties in the run log's ranking), so a dict is a sequence of
      key-value entries. */
  type Entries<V> = seq<(string, V)>

  function Keys<V>(d: Entries<V>): seq<string>
  {
    seq(|d|, i requires 0 <= i < |d| => d[i].0)
  }

  /** No key occurs twice, as in a real dict. */
  predicate DistinctKeys<V>(d: Entries<V>) {
    forall i, j :: 0 <= i < j < |d| ==> d[i].0 != d[j].0
  }

  /** The display labels of `SOURCE_META` (digest.py lines 199-207). Its
      `always_include` flags are never read: the profile's list decides. */
  const SourceLabels: map<string, string> := map[
    "simon" := "Simon Willison",
    "tldr" := "TLDR Newsletter",
    "techcrunch" := "TechCrunch Venture",
    "producthunt" := "Product Hunt",
    "lenny" := "Lenny's Newsletter",
    "luma" := "Luma SF",
    "funcheap" := "Funcheap SF"
  ]

  /** The keys of joined entries are the keys of each part, in order. */
  lemma KeysAppend<V>(a: Entries<V>, b: Entries<V>)
    ensures Keys(a + b) == Keys(a) + Keys(b)
  {
    assert forall i :: 0 <= i < |a + b| ==> Keys(a + b)[i] == (Keys(a) + Keys(b))[i];
  }

  /** A key is among the keys exactly when some entry has it. */
  lemma KeysMembers<V>(d: Entries<V>)
    ensures forall k :: k in Keys(d) <==> exists e :: e in d && e.0 == k
  {
    forall k | k in Keys(d)
      ensures exists e :: e in d && e.0 == k
    {
      var i :| 0 <= i < |d| && Keys(d)[i] == k;
      assert d[i] in d;
    }
    forall k | exists e :: e in d && e.0 == k
      ensures k in Keys(d)
    {
      var e :| e in d && e.0 == k;
      var i :| 0 <= i < |d| && d[i] == e;
      assert Keys(d)[i] == k;
    }
  }

  /** `SOURCE_META.get(key, {}).get("label", key)`. */
  function Label(key: string): string {
    if key in SourceLabels then SourceLabels[key] else key
  }

  /** The items of one source, each paired with its source key. */
  function Tagged(key: string, items: seq<Item>): seq<(string, Item)>
  {
    seq(|items|, i requires 0 <= i < |items| => (key, items[i]))
  }

  /** Every curated item with its source, sources in dict order and items
      in list order: what `for source_key, items in curated.items(): for
      item in items:` visits. */
  function Flatten(curated: Entries<seq<Item>>): seq<(string, Item)> {
    if curated == [] then []
    else Flatten(curated[..|curated| - 1]) + Tagged(curated[|curated| - 1].0, curated[|curated| - 1].1)
  }

  /** Pairing two runs of items is pairing each run, in order. */
  lemma TaggedAppend(key: string, a: seq<Item>, b: seq<Item>)
    ensures Tagged(key, a + b) == Tagged(key, a) + Tagged(key, b)
  {
    assert forall i :: 0 <= i < |a + b| ==> Tagged(key, a + b)[i] == (Tagged(key, a) + Tagged(key, b))[i];
  }

  lemma TaggedMembers(key: string, items: seq<Item>)
    ensures forall p :: p in Tagged(key, items) <==> p.0 == key && p.1 in items
  {
    var t := Tagged(key, items);
    forall p: (string, Item) | p.0 == key && p.1 in items
      ensures p in t
    {
      var k :| 0 <= k < |items| && items[k] == p.1;
      assert t[k] == p;
    }
  }

  /** An item is visited by the flattening exactly when it belongs to some
      source's list. */
  lemma {:induction false} FlattenMembers(curated: Entries<seq<Item>>)
    ensures forall p :: p in Flatten(curated) <==>
              exists i :: 0 <= i < |curated| && curated[i].0 == p.0 && p.1 in curated[i].1
  {
    if curated != [] {
      var n := |curated| - 1;
      var init := curated[..n];
      var last := Tagged(curated[n].0, curated[n].1);
      FlattenMembers(init);
      TaggedMembers(curated[n].0, curated[n].1);
      assert Flatten(curated) == Flatten(init) + last;
      forall p | p in Flatten(curated)
        ensures exists i :: 0 <= i < |curated| && curated[i].0 == p.0 && p.1 in curated[i].1
      {
        if p in Flatten(init) {
          var i :| 0 <= i < |init| && init[i].0 == p.0 && p.1 in init[i].1;
          assert curated[i] == init[i];
        } else {
          assert p in last;
          assert curated[n].0 == p.0 && p.1 in curated[n].1;
        }
      }
      forall p: (string, Item) | exists i :: 0 <= i < |curated| && curated[i].0 == p.0 && p.1 in curated[i].1
        ensures p in Flatten(curated)
      {
        var i :| 0 <= i < |curated| && curated[i].0 == p.0 && p.1 in curated[i].1;
        if i < n {
          assert init[i] == curated[i];
          assert p in Flatten(init);
        } else {
          assert p in last;
        }
      }
    }
  }
}

=== FILE: markdown.dfy ===
/** The block structure of `md_to_html` (digest.py lines 539-558): a walk
    over the lines of a summary with one flag, `in_list`, that turns runs
    of bullet lines into `<ul>` lists of `<li>` items and every other
    non-blank line into a `<p>` paragraph. The inline rewriting of links
    and bold text (`_apply_inline`) is a parameter. */
module Markdown {
  import opened Text

  /** `_apply_inline`: regular-expression rewriting, left uninterpreted. */
  type Inline = string -> string

  const ListOpen := "<ul>"
  const ListClose := "</ul>"

  /** A trimmed line that starts with `- ` or `* ` is a bullet. */
  predicate IsBullet(stripped: string) {
    StartsWith(stripped, "- ") || StartsWith(stripped, "* ")
  }

  /** What the walk sees in one line once it is trimmed: a bullet and the
      text after its marker, a paragraph, or nothing. */
  datatype Block = Bullet(text: string) | Paragraph(text: string) | Blank

  /** A line is a bullet when its trimmed form starts with `- ` or `* `,
      and the item is what follows the marker; a blank line is one that
      trims to nothing; anything else is a paragraph of the trimmed text. */
  function Classify(line: string): (r: Block)
    ensures r.Bullet? <==> IsBullet(Strip(line))
    ensures r.Bullet? ==> r.text == Strip(line)[2..]
    ensures r.Blank? <==> Strip(line) == []
    ensures r.Paragraph? ==> r.text == Strip(line) && r.text != []
  {
    var s := Strip(line);
    if IsBullet(s) then Bullet(s[2..])
    else if s != "" then Paragraph(s)
    else Blank
  }

  function Blocks(lines: seq<string>): seq<Block>
  {
    seq(|lines|, i requires 0 <= i < |lines| => Classify(lines[i]))
  }

  /** Each line is classified on its own: the blocks of two runs of lines
      are the blocks of each run, in order. */
  lemma BlocksAppend(a: seq<string>, b: seq<string>)
    ensures Blocks(a + b) == Blocks(a) + Blocks(b)
  {
    assert forall i :: 0 <= i < |a + b| ==> Blocks(a + b)[i] == (Blocks(a) + Blocks(b))[i];
  }

  function ItemLine(text: string, inline: Inline): string {
    "  <li>" + inline(text) + "</li>"
  }

  function ParagraphLine(text: string, inline: Inline): string {
    "<p>" + inline(text) + "</p>"
  }

  /** The list tags a step emits before its own output: `<ul>` when a
      bullet starts a list, `</ul>` when anything else ends one. */
  function Tags(b: Block, inList: bool): seq<string> {
    if b.Bullet? then (if inList then [] else [ListOpen])
    else (if inList then [ListClose] else [])
  }

  /** The output of one line, whatever the list state: one item for a
      bullet, one paragraph for any other non-blank line, nothing for a
      blank one. */
  function BlockOutput(b: Block, inline: Inline): seq<string> {
    match b
    case Bullet(t) => [ItemLine(t, inline)]
    case Paragraph(t) => [ParagraphLine(t, inline)]
    case Blank => []
  }

  /** `html_lines` and `in_list` after the loop has seen `blocks`. */
  datatype State = State(htmlLines: seq<string>, inList: bool)

  /** The flag `in_list` is set after the walk exactly when the last
      line it saw was a bullet. */
  function Walk(blocks: seq<Block>, inline: Inline): (r: State)
    ensures r.inList <==> blocks != [] && blocks[|blocks| - 1].Bullet?
  {
    if blocks == [] then State([], false)
    else
      var n := |blocks| - 1;
      var s := Walk(blocks[..n], inline);
      State(s.htmlLines + Tags(blocks[n], s.inList) + BlockOutput(blocks[n], inline), blocks[n].Bullet?)
  }

  lemma WalkStep(blocks: seq<Block>, i: nat, inline: Inline)
    requires i < |blocks|
    ensures Walk(blocks[..i + 1], inline)
         == State(Walk(blocks[..i], inline).htmlLines + Tags(blocks[i], Walk(blocks[..i], inline).inList)
                  + BlockOutput(blocks[i], inline), blocks[i].Bullet?)
  {
    assert blocks[..i + 1][..i] == blocks[..i];
  }

  /** The lines after the loop, with the list still open closed. */
  function Finish(s: State): seq<string> {
    s.htmlLines + (if s.inList then [ListClose] else [])
  }

  /** The HTML lines `md_to_html` joins, for the lines of its input: what
      the loop emits is what the front-to-back reading of the blocks
      describes. */
  function Render(lines: seq<string>, inline: Inline): (r: seq<string>)
    ensures r == RenderBlocks(Blocks(lines), false, inline)
  {
    var blocks := Blocks(lines);
    WalkThenRender(blocks, [], inline);
    assert blocks + [] == blocks;
    Finish(Walk(blocks, inline))
  }

  /** The lines of `md_to_html` before the join. Each line is trimmed and
      classified as the loop reaches it; classifying them all first gives
      the same blocks, since trimming is pure. */
  method RenderLines(lines: seq<string>, inline: Inline) returns (htmlLines: seq<string>)
    ensures htmlLines == Render(lines, inline)
  {
    var blocks := Blocks(lines);
    htmlLines := WalkBlocks(blocks, inline);
  }

  /** The loop over the lines with its one flag, `in_list`. */
  method WalkBlocks(blocks: seq<Block>, inline: Inline) returns (htmlLines: seq<string>)
    ensures htmlLines == Finish(Walk(blocks, inline))
  {
    htmlLines := [];
    var inList := false;
    var i := 0;
    while i < |blocks|
      invariant 0 <= i <= |blocks|
      invariant State(htmlLines, inList) == Walk(blocks[..i], inline)
    {
      WalkStep(blocks, i, inline);
      htmlLines, inList := Step(blocks[i], htmlLines, inList, inline);
      i := i + 1;
    }
    assert blocks[..i] == blocks;
    if inList {
      htmlLines := htmlLines + [ListClose];
    }
  }

  /** The body of the loop for one line. */
  method Step(block: Block, htmlLines: seq<string>, inList: bool, inline: Inline)
    returns (htmlLines': seq<string>, inList': bool)
    ensures htmlLines' == htmlLines + Tags(block, inList) + BlockOutput(block, inline)
    ensures inList' == block.Bullet?
  {
    htmlLines', inList' := htmlLines, inList;
    match block {
      case Bullet(text) =>
        if !inList' {
          htmlLines' := htmlLines' + [ListOpen];
          inList' := true;
        }
        htmlLines' := htmlLines' + [ItemLine(text, inline)];
      case Paragraph(text) =>
        if inList' {
          htmlLines' := htmlLines' + [ListClose];
          inList' := false;
        }
        htmlLines' := htmlLines' + [ParagraphLine(text, inline)];
      case Blank =>
        if inList' {
          htmlLines' := htmlLines' + [ListClose];
          inList' := false;
        }
    }
  }

  /** `md_to_html`: the HTML lines joined with newlines. */
  method MdToHtml(text: string, inline: Inline) returns (html: string)
    ensures html == JoinLines(Render(SplitLines(text), inline))
  {
    var htmlLines := RenderLines(SplitLines(text), inline);
    html := JoinLines(htmlLines);
  }

  // ---------------------------------------------------------------------
  // A reference definition, read from the front
  // ---------------------------------------------------------------------

  /** The HTML lines emitted for `blocks` when the walk reaches them with
      the flag `inList`, up to and including the final `</ul>` that closes
      a list still open at the end. */
  function RenderBlocks(blocks: seq<Block>, inList: bool, inline: Inline): seq<string> {
    if blocks == [] then (if inList then [ListClose] else [])
    else
      match blocks[0]
      case Bullet(t) =>
        (if inList then [] else [ListOpen]) + [ItemLine(t, inline)] + RenderBlocks(blocks[1..], true, inline)
      case Paragraph(t) =>
        (if inList then [ListClose] else []) + [ParagraphLine(t, inline)] + RenderBlocks(blocks[1..], false, inline)
      case Blank =>
        (if inList then [ListClose] else []) + RenderBlocks(blocks[1..], false, inline)
  }

  /** One step of the reference reading: the tags, the block's own
      output, then the rest from the new list state. */
  lemma RenderBlocksStep(blocks: seq<Block>, inList: bool, inline: Inline)
    requires blocks != []
    ensures RenderBlocks(blocks, inList, inline)
         == Tags(blocks[0], inList) + (BlockOutput(blocks[0], inline)
            + RenderBlocks(blocks[1..], blocks[0].Bullet?, inline))
  {
  }

  lemma RenderBlocksCons(b: Block, rest: seq<Block>, inList: bool, inline: Inline)
    ensures RenderBlocks([b] + rest, inList, inline)
         == Tags(b, inList) + BlockOutput(b, inline) + RenderBlocks(rest, b.Bullet?, inline)
  {
    assert ([b] + rest)[0] == b && ([b] + rest)[1..] == rest;
    RenderBlocksStep([b] + rest, inList, inline);
  }

  lemma Assoc<T>(a: seq<T>, b: seq<T>, c: seq<T>, d: seq<T>)
    ensures a + b + c + d == a + (b + c + d)
  {
  }

  lemma {:induction false} WalkThenRender(blocks: seq<Block>, rest: seq<Block>, inline: Inline)
    ensures Walk(blocks, inline).htmlLines + RenderBlocks(rest, Walk(blocks, inline).inList, inline)
         == RenderBlocks(blocks + rest, false, inline)
  {
    if blocks == [] {
      assert blocks + rest == rest;
    } else {
      var n := |blocks| - 1;
      var p := blocks[..n];
      var b := blocks[n];
      var s := Walk(p, inline);
      WalkThenRender(p, [b] + rest, inline);
      SplitLast(blocks, rest);
      RenderBlocksCons(b, rest, s.inList, inline);
      Assoc(s.htmlLines, Tags(b, s.inList), BlockOutput(b, inline), RenderBlocks(rest, b.Bullet?, inline));
    }
  }

  // ---------------------------------------------------------------------
  // Structure of the output
  // ---------------------------------------------------------------------

  predicate IsItemLine(l: string) {
    StartsWith(l, "  <li>")
  }

  predicate IsParagraphLine(l: string) {
    StartsWith(l, "<p>")
  }

  /** Well-formed block HTML read from a state: `<ul>` only when no list
      is open and always followed by an item, `</ul>` only when one is,
      items only inside a list, paragraphs only outside one, and no list
      left open at the end. */
  predicate WellFormed(out: seq<string>, open: bool) {
    if out == [] then !open
    else if out[0] == ListOpen then
      !open && |out| >= 2 && IsItemLine(out[1]) && WellFormed(out[1..], true)
    else if out[0] == ListClose then open && WellFormed(out[1..], false)
    else if IsItemLine(out[0]) then open && WellFormed(out[1..], true)
    else IsParagraphLine(out[0]) && !open && WellFormed(out[1..], false)
  }

  lemma ItemLineIsItem(t: string, inline: Inline)
    ensures IsItemLine(ItemLine(t, inline))
    ensures ItemLine(t, inline) != ListOpen && ItemLine(t, inline) != ListClose
  {
    var l := ItemLine(t, inline);
    assert l[..6] == "  <li>";
    assert l[0] == ' ';
  }

  lemma ParagraphLineIsParagraph(t: string, inline: Inline)
    ensures IsParagraphLine(ParagraphLine(t, inline))
    ensures !IsItemLine(ParagraphLine(t, inline))
    ensures ParagraphLine(t, inline) != ListOpen && ParagraphLine(t, inline) != ListClose
  {
    var l := ParagraphLine(t, inline);
    assert l[..3] == "<p>";
    assert l[0] == '<' && l[1] == 'p';
  }

  /** An item line, opening a list first when none is open, keeps the
      output well-formed. */
  lemma ItemStepWellFormed(item: string, rest: seq<string>, inList: bool)
    requires IsItemLine(item) && item != ListOpen && item != ListClose
    requires WellFormed(rest, true)
    ensures WellFormed((if inList then [] else [ListOpen]) + [item] + rest, inList)
  {
    assert ([item] + rest)[0] == item && ([item] + rest)[1..] == rest;
    if !inList {
      assert ([ListOpen] + [item] + rest)[1..] == [item] + rest;
    } else {
      assert [] + [item] + rest == [item] + rest;
    }
  }

  /** A paragraph line, closing the open list first, keeps the output
      well-formed. */
  lemma ParagraphStepWellFormed(para: string, rest: seq<string>, inList: bool)
    requires IsParagraphLine(para) && !IsItemLine(para) && para != ListOpen && para != ListClose
    requires WellFormed(rest, false)
    ensures WellFormed((if inList then [ListClose] else []) + [para] + rest, inList)
  {
    assert ([para] + rest)[0] == para && ([para] + rest)[1..] == rest;
    if inList {
      assert ([ListClose] + [para] + rest)[1..] == [para] + rest;
    } else {
      assert [] + [para] + rest == [para] + rest;
    }
  }

  /** A blank line, closing the open list, keeps the output well-formed. */
  lemma BlankStepWellFormed(rest: seq<string>, inList: bool)
    requires WellFormed(rest, false)
    ensures WellFormed((if inList then [ListClose] else []) + rest, inList)
  {
    if inList {
      assert ([ListClose] + rest)[1..] == rest;
    } else {
      assert [] + rest == rest;
    }
  }

  /** Whatever the blocks, the output is well-formed from the state the
      walk starts in. */
  lemma {:induction false} RenderBlocksWellFormed(blocks: seq<Block>, inList: bool, inline: Inline)
    ensures WellFormed(RenderBlocks(blocks, inList, inline), inList)
  {
    if blocks != [] {
      var rest := RenderBlocks(blocks[1..], blocks[0].Bullet?, inline);
      RenderBlocksWellFormed(blocks[1..], blocks[0].Bullet?, inline);
      match blocks[0]
      case Bullet(t) =>
        ItemLineIsItem(t, inline);
        ItemStepWellFormed(ItemLine(t, inline), rest, inList);
      case Paragraph(t) =>
        ParagraphLineIsParagraph(t, inline);
        ParagraphStepWellFormed(ParagraphLine(t, inline), rest, inList);
      case Blank =>
        BlankStepWellFormed(rest, inList);
    }
  }

  /** The output of `md_to_html` is well-formed: lists never nest, never
      stay open and never come out empty; items sit inside a list and
      paragraphs outside one. */
  lemma RenderWellFormed(lines: seq<string>, inline: Inline)
    ensures WellFormed(Render(lines, inline), false)
  {
    RenderBlocksWellFormed(Blocks(lines), false, inline);
  }

  /** The number of lines equal to `tag`. */
  function Occurrences(out: seq<string>, tag: string): nat {
    if out == [] then 0
    else (if out[0] == tag then 1 else 0) + Occurrences(out[1..], tag)
  }

  lemma {:induction false} OccurrencesAppend(a: seq<string>, b: seq<string>, tag: string)
    ensures Occurrences(a + b, tag) == Occurrences(a, tag) + Occurrences(b, tag)
  {
    if a != [] {
      OccurrencesAppend(a[1..], b, tag);
      assert (a + b)[0] == a[0];
      assert (a + b)[1..] == a[1..] + b;
    } else {
      assert a + b == b;
    }
  }

  /** In well-formed output every `<ul>` is matched by one `</ul>`. */
  lemma {:induction false} WellFormedBalanced(out: seq<string>, open: bool)
    requires WellFormed(out, open)
    ensures Occurrences(out, ListOpen) + (if open then 1 else 0) == Occurrences(out, ListClose)
  {
    if out != [] {
      if out[0] == ListOpen {
        WellFormedBalanced(out[1..], true);
      } else if out[0] == ListClose {
        WellFormedBalanced(out[1..], false);
      } else {
        WellFormedBalanced(out[1..], open);
      }
    }
  }

  /** `md_to_html` emits as many `<ul>` lines as `</ul>` lines. */
  lemma RenderBalanced(lines: seq<string>, inline: Inline)
    ensures Occurrences(Render(lines, inline), ListOpen) == Occurrences(Render(lines, inline), ListClose)
  {
    RenderWellFormed(lines, inline);
    WellFormedBalanced(Render(lines, inline), false);
  }

  // ---------------------------------------------------------------------
  // What each input line becomes
  // ---------------------------------------------------------------------

  function Expected(blocks: seq<Block>, inline: Inline): seq<string> {
    if blocks == [] then [] else BlockOutput(blocks[0], inline) + Expected(blocks[1..], inline)
  }

  /** The output with the list tags taken out. */
  function Content(out: seq<string>): seq<string> {
    if out == [] then []
    else (if out[0] == ListOpen || out[0] == ListClose then [] else [out[0]]) + Content(out[1..])
  }

  lemma {:induction false} ContentAppend(a: seq<string>, b: seq<string>)
    ensures Content(a + b) == Content(a) + Content(b)
  {
    if a != [] {
      ContentAppend(a[1..], b);
      assert (a + b)[0] == a[0];
      assert (a + b)[1..] == a[1..] + b;
    } else {
      assert a + b == b;
    }
  }

  lemma BlockOutputUntagged(b: Block, inline: Inline)
    ensures Content(BlockOutput(b, inline)) == BlockOutput(b, inline)
    ensures Occurrences(BlockOutput(b, inline), ListOpen) == 0
  {
    match b
    case Bullet(t) => ItemLineIsItem(t, inline);
    case Paragraph(t) => ParagraphLineIsParagraph(t, inline);
    case Blank =>
  }

  /** Apart from the list tags, the output is exactly the block-by-block
      output, in order. */
  lemma {:induction false} RenderBlocksContent(blocks: seq<Block>, inList: bool, inline: Inline)
    ensures Content(RenderBlocks(blocks, inList, inline)) == Expected(blocks, inline)
  {
    if blocks != [] {
      var tags := Tags(blocks[0], inList);
      var mid := BlockOutput(blocks[0], inline);
      var rest := RenderBlocks(blocks[1..], blocks[0].Bullet?, inline);
      RenderBlocksContent(blocks[1..], blocks[0].Bullet?, inline);
      RenderBlocksStep(blocks, inList, inline);
      ContentAppend(tags, mid + rest);
      ContentAppend(mid, rest);
      BlockOutputUntagged(blocks[0], inline);
      assert Content(tags) == [];
    }
  }

  /** Apart from the list tags, `md_to_html` emits exactly one item per
      bullet line, one paragraph per other non-blank line and nothing for
      a blank line, in the order of the lines. */
  lemma RenderContent(lines: seq<string>, inline: Inline)
    ensures Content(Render(lines, inline)) == Expected(Blocks(lines), inline)
  {
    RenderBlocksContent(Blocks(lines), false, inline);
  }

  // ---------------------------------------------------------------------
  // How many lists
  // ---------------------------------------------------------------------

  /** The number of maximal runs of consecutive bullets, not counting a
      run that continues one already open (`inList`). */
  function BulletRuns(blocks: seq<Block>, inList: bool): nat {
    if blocks == [] then 0
    else (if blocks[0].Bullet? && !inList then 1 else 0) + BulletRuns(blocks[1..], blocks[0].Bullet?)
  }

  lemma {:induction false} ListPerRunBlocks(blocks: seq<Block>, inList: bool, inline: Inline)
    ensures Occurrences(RenderBlocks(blocks, inList, inline), ListOpen) == BulletRuns(blocks, inList)
  {
    if blocks != [] {
      var tags := Tags(blocks[0], inList);
      var mid := BlockOutput(blocks[0], inline);
      var rest := RenderBlocks(blocks[1..], blocks[0].Bullet?, inline);
      ListPerRunBlocks(blocks[1..], blocks[0].Bullet?, inline);
      RenderBlocksStep(blocks, inList, inline);
      OccurrencesAppend(tags, mid + rest, ListOpen);
      OccurrencesAppend(mid, rest, ListOpen);
      BlockOutputUntagged(blocks[0], inline);
      assert Occurrences(tags, ListOpen) == (if blocks[0].Bullet? && !inList then 1 else 0);
    }
  }

  /** One `<ul>` per run of consecutive bullet lines: any other line, a
      blank one included, closes the list. */
  lemma ListPerRun(lines: seq<string>, inline: Inline)
    ensures Occurrences(Render(lines, inline), ListOpen) == BulletRuns(Blocks(lines), false)
  {
    ListPerRunBlocks(Blocks(lines), false, inline);
  }
}

=== FILE: ranking.dfy ===
/** `list.sort(key=..., reverse=True)` as both curation and the run log
    use it: a stable sort into descending key order. Python's sort is
    library code (Timsort); it is modelled by an insertion sort that is
    proved to be a stable, descending permutation of its input. */
module Ranking {

  predicate SortedDesc<T>(s: seq<T>, key: T -> real) {
    forall i, j :: 0 <= i < j < |s| ==> key(s[i]) >= key(s[j])
  }

  /** Inserts `x` in front of the first element whose key is not above
      its own, so that `x` precedes every element with an equal key. */
  function InsertDesc<T>(x: T, s: seq<T>, key: T -> real): (r: seq<T>)
    ensures |r| == |s| + 1
  {
    if s == [] || key(x) >= key(s[0]) then [x] + s
    else [s[0]] + InsertDesc(x, s[1..], key)
  }

  lemma {:induction false} InsertDescPermutes<T>(x: T, s: seq<T>, key: T -> real)
    ensures multiset(InsertDesc(x, s, key)) == multiset(s) + multiset{x}
  {
    if s != [] && key(x) < key(s[0]) {
      InsertDescPermutes(x, s[1..], key);
      assert s == [s[0]] + s[1..];
    }
  }

  lemma {:induction false} InsertDescSorted<T>(x: T, s: seq<T>, key: T -> real)
    requires SortedDesc(s, key)
    ensures SortedDesc(InsertDesc(x, s, key), key)
  {
    if s == [] || key(x) >= key(s[0]) {
      assert forall j :: 0 <= j < |s| ==> key(s[0]) >= key(s[j]);
    } else {
      var rest := InsertDesc(x, s[1..], key);
      InsertDescSorted(x, s[1..], key);
      InsertDescPermutes(x, s[1..], key);
      forall i | 0 <= i < |rest| ensures key(s[0]) >= key(rest[i]) {
        assert rest[i] in multiset(s[1..]) + multiset{x};
        if rest[i] != x {
          var k :| 0 <= k < |s[1..]| && s[1..][k] == rest[i];
          assert s[k + 1] == rest[i];
        }
      }
    }
  }

  /** The stable descending sort. */
  function SortDesc<T>(s: seq<T>, key: T -> real): (r: seq<T>)
    ensures |r| == |s|
  {
    if s == [] then []
    else InsertDesc(s[0], SortDesc(s[1..], key), key)
  }

  /** The sort is a permutation of its input. */
  lemma {:induction false} SortDescPermutes<T>(s: seq<T>, key: T -> real)
    ensures multiset(SortDesc(s, key)) == multiset(s)
  {
    if s != [] {
      SortDescPermutes(s[1..], key);
      InsertDescPermutes(s[0], SortDesc(s[1..], key), key);
      assert s == [s[0]] + s[1..];
    }
  }

  /** The sort's output is in descending key order. */
  lemma {:induction false} SortDescSorted<T>(s: seq<T>, key: T -> real)
    ensures SortedDesc(SortDesc(s, key), key)
  {
    if s != [] {
      SortDescSorted(s[1..], key);
      InsertDescSorted(s[0], SortDesc(s[1..], key), key);
    }
  }

  /** The elements of `s` whose key equals `v`, in their order in `s`. */
  function WithKey<T>(s: seq<T>, key: T -> real, v: real): seq<T> {
    if s == [] then []
    else (if key(s[0]) == v then [s[0]] else []) + WithKey(s[1..], key, v)
  }

  lemma {:induction false} WithKeyInsert<T>(x: T, s: seq<T>, key: T -> real, v: real)
    ensures WithKey(InsertDesc(x, s, key), key, v)
         == (if key(x) == v then [x] else []) + WithKey(s, key, v)
  {
    if s == [] || key(x) >= key(s[0]) {
      assert ([x] + s)[1..] == s;
    } else {
      WithKeyInsert(x, s[1..], key, v);
      var rest := InsertDesc(x, s[1..], key);
      var r := [s[0]] + rest;
      assert r[1..] == rest;
      var head := if key(s[0]) == v then [s[0]] else [];
      var mid := if key(x) == v then [x] else [];
      calc {
        WithKey(r, key, v);
        head + WithKey(rest, key, v);
        head + (mid + WithKey(s[1..], key, v));
        { if key(x) == v { assert head == []; } }
        mid + (head + WithKey(s[1..], key, v));
        mid + WithKey(s, key, v);
      }
    }
  }

  /** Stability: among elements with equal keys the sort keeps the input
      order. */
  lemma {:induction false} SortDescStable<T>(s: seq<T>, key: T -> real, v: real)
    ensures WithKey(SortDesc(s, key), key, v) == WithKey(s, key, v)
  {
    if s != [] {
      SortDescStable(s[1..], key, v);
      WithKeyInsert(s[0], SortDesc(s[1..], key), key, v);
    }
  }

  /** Cutting a sequence short keeps, of each key value, the first ones. */
  lemma {:induction false} WithKeyOfPrefix<T>(s: seq<T>, n: nat, key: T -> real, v: real)
    requires n <= |s|
    ensures WithKey(s, key, v) == WithKey(s[..n], key, v) + WithKey(s[n..], key, v)
  {
    if n > 0 {
      WithKeyOfPrefix(s[1..], n - 1, key, v);
      assert s[1..][..n - 1] == s[..n][1..];
      assert s[1..][n - 1..] == s[n..];
    }
  }

  /** Picking the elements with one key value distributes over
      concatenation. */
  lemma WithKeyAppend<T>(a: seq<T>, b: seq<T>, key: T -> real, v: real)
    ensures WithKey(a + b, key, v) == WithKey(a, key, v) + WithKey(b, key, v)
  {
    WithKeyOfPrefix(a + b, |a|, key, v);
    assert (a + b)[..|a|] == a && (a + b)[|a|..] == b;
  }

  lemma WithKeySingle<T>(x: T, key: T -> real, v: real)
    ensures WithKey([x], key, v) == if key(x) == v then [x] else []
  {
    assert [x][1..] == [];
  }

  /** A prefix of a descending sequence is descending and is drawn from
      it. */
  lemma PrefixSortedDrawn<T>(s: seq<T>, n: nat, key: T -> real)
    requires n <= |s|
    ensures SortedDesc(s, key) ==> SortedDesc(s[..n], key)
    ensures multiset(s[..n]) <= multiset(s)
  {
    assert s == s[..n] + s[n..];
  }

  /** A prefix of a descending sequence is its top part: every element
      left out scores no higher than any element kept. */
  lemma PrefixIsTop<T>(s: seq<T>, n: nat, key: T -> real)
    requires SortedDesc(s, key)
    requires n <= |s|
    ensures forall x :: x in s && x !in s[..n] ==>
              forall y :: y in s[..n] ==> key(x) <= key(y)
  {
    forall x, y | x in s && x !in s[..n] && y in s[..n]
      ensures key(x) <= key(y)
    {
      assert s == s[..n] + s[n..];
      var i :| 0 <= i < |s| - n && s[n..][i] == x;
      var j :| 0 <= j < n && s[..n][j] == y;
      assert key(s[j]) >= key(s[n + i]);
    }
  }
}

=== FILE: runlog.dfy ===
/** The run's bookkeeping: the fetch log that `fetch_all_raw` keeps
    through its `_record` helper (digest.py lines 220-226), and the two
    derived fields of the per-run log that `write_log` assembles (lines
    680-698): the top three items by score and the failed sources. */
module RunLog {
  import opened Wrappers
  import opened Text
  import opened Ranking
  import opened Items
  import opened Curation

  // ---------------------------------------------------------------------
  // Dicts assigned by key
  // ---------------------------------------------------------------------

  /** `d[key]`, or `None` when the key is absent. */
  function Lookup<V>(d: Entries<V>, key: string): Option<V> {
    if d == [] then None
    else if d[0].0 == key then Some(d[0].1)
    else Lookup(d[1..], key)
  }

  /** `d[key] = v`: an existing key keeps its place and takes the new
      value; a new key goes at the end. */
  function Assign<V>(d: Entries<V>, key: string, v: V): (r: Entries<V>)
    ensures (key, v) in r
    ensures |r| == if key in Keys(d) then |d| else |d| + 1
  {
    if d == [] then [(key, v)]
    else
      assert d == [d[0]] + d[1..];
      KeysCons(d[0], d[1..]);
      if d[0].0 == key then [(key, v)] + d[1..]
      else [d[0]] + Assign(d[1..], key, v)
  }

  /** After the assignment the key holds the new value and every other key
      its old one. */
  lemma {:induction false} AssignLookup<V>(d: Entries<V>, key: string, v: V, other: string)
    ensures Lookup(Assign(d, key, v), key) == Some(v)
    ensures other != key ==> Lookup(Assign(d, key, v), other) == Lookup(d, other)
  {
    if d != [] && d[0].0 != key {
      AssignLookup(d[1..], key, v, other);
      var r := Assign(d, key, v);
      assert r[1..] == Assign(d[1..], key, v);
    }
  }

  lemma KeysCons<V>(e: (string, V), d: Entries<V>)
    ensures Keys([e] + d) == [e.0] + Keys(d)
  {
    KeysAppend([e], d);
  }

  /** The key order is kept, and a new key is appended. */
  lemma {:induction false} AssignKeys<V>(d: Entries<V>, key: string, v: V)
    ensures Keys(Assign(d, key, v)) == if key in Keys(d) then Keys(d) else Keys(d) + [key]
  {
    if d == [] {
      KeysCons((key, v), d);
    } else {
      var tail := d[1..];
      assert d == [d[0]] + tail;
      KeysCons(d[0], tail);
      if d[0].0 == key {
        KeysCons((key, v), tail);
      } else {
        var rest := Assign(tail, key, v);
        AssignKeys(tail, key, v);
        KeysCons(d[0], rest);
        assert key in Keys(d) <==> key in Keys(tail);
        if key !in Keys(tail) {
          assert [d[0].0] + (Keys(tail) + [key]) == [d[0].0] + Keys(tail) + [key];
        }
      }
    }
  }

  lemma AssignDistinct<V>(d: Entries<V>, key: string, v: V)
    requires DistinctKeys(d)
    ensures DistinctKeys(Assign(d, key, v))
  {
    var r := Assign(d, key, v);
    AssignKeys(d, key, v);
    forall i, j | 0 <= i < j < |r|
      ensures r[i].0 != r[j].0
    {
      assert Keys(r)[i] == r[i].0 && Keys(r)[j] == r[j].0;
      if key !in Keys(d) && j == |d| {
        assert Keys(d)[i] == d[i].0;
      } else {
        assert Keys(d)[i] == d[i].0 && Keys(d)[j] == d[j].0;
      }
    }
  }

  /** In a dict, the key found by `Lookup` is the one entry with that
      key. */
  lemma {:induction false} LookupFinds<V>(d: Entries<V>, key: string)
    requires DistinctKeys(d)
    ensures Lookup(d, key).Some? <==> key in Keys(d)
    ensures forall i :: 0 <= i < |d| && d[i].0 == key ==> Lookup(d, key) == Some(d[i].1)
  {
    if d != [] {
      LookupFinds(d[1..], key);
      assert Keys(d) == [d[0].0] + Keys(d[1..]);
      forall i | 0 <= i < |d| && d[i].0 == key
        ensures Lookup(d, key) == Some(d[i].1)
      {
        if i > 0 {
          assert d[1..][i - 1] == d[i];
        }
      }
    }
  }

  // ---------------------------------------------------------------------
  // The fetch log
  // ---------------------------------------------------------------------

  const StatusOk := "ok"
  const StatusFailed := "failed"

  /** One fetch-log entry: characters fetched, status and the error. */
  datatype FetchStatus = FetchStatus(chars: nat, status: string, error: Option<string>)

  /** Python's `not error` for `None` or a string. */
  predicate NoError(error: Option<string>) {
    error == None || error == Some("")
  }

  /** The entry `_record` writes: the status is one of the two words, and
      "failed" exactly when an error was given. */
  function StatusOf(content: string, error: Option<string>): (r: FetchStatus)
    ensures r.status == StatusOk || r.status == StatusFailed
    ensures r.status == StatusFailed <==> !NoError(error)
    ensures r.chars == |content| && r.error == error
  {
    FetchStatus(|content|, if NoError(error) then StatusOk else StatusFailed, error)
  }

  /** The two dicts `_record` writes into, `raw` and `fetch_log`. */
  class FetchLog {
    var raw: Entries<string>
    var log: Entries<FetchStatus>

    /** Both dicts have the same keys, in the same order, once each. */
    ghost predicate Valid()
      reads this
    {
      DistinctKeys(raw) && Keys(raw) == Keys(log)
    }

    constructor ()
      ensures raw == [] && log == []
      ensures Valid()
    {
      raw := [];
      log := [];
    }

    /** `_record(key, content, error)`. */
    method Record(key: string, content: string, error: Option<string>)
      requires Valid()
      modifies this
      ensures raw == Assign(old(raw), key, content)
      ensures log == Assign(old(log), key, StatusOf(content, error))
      ensures Valid()
    {
      AssignDistinct(raw, key, content);
      AssignKeys(raw, key, content);
      AssignKeys(log, key, StatusOf(content, error));
      raw := Assign(raw, key, content);
      log := Assign(log, key, StatusOf(content, error));
    }
  }

  /** A recorded source reports its content's length, and the status "ok"
      exactly when no error was given. */
  lemma RecordedStatus(log: Entries<FetchStatus>, key: string, content: string, error: Option<string>)
    ensures var s := Lookup(Assign(log, key, StatusOf(content, error)), key);
      && s.Some?
      && s.value.chars == |content|
      && (s.value.status == StatusOk <==> NoError(error))
      && (s.value.status == StatusFailed <==> !NoError(error))
      && s.value.error == error
  {
    AssignLookup(log, key, StatusOf(content, error), key);
  }

  /** `[k for k, v in fetch_log.items() if v.get("status") == "failed"]`. */
  function FailedSources(log: Entries<FetchStatus>): (r: seq<string>)
    ensures |r| <= |log|
    ensures forall k :: k in r ==> k in Keys(log)
  {
    if log == [] then []
    else
      assert log == [log[0]] + log[1..];
      KeysCons(log[0], log[1..]);
      (if log[0].1.status == StatusFailed then [log[0].0] else []) + FailedSources(log[1..])
  }

  /** A source is listed as failed exactly when its entry has that
      status. */
  lemma {:induction false} FailedSourcesIff(log: Entries<FetchStatus>)
    requires DistinctKeys(log)
    ensures forall k :: k in FailedSources(log) <==>
              Lookup(log, k).Some? && Lookup(log, k).value.status == StatusFailed
  {
    if log != [] {
      var tail := log[1..];
      assert DistinctKeys(tail) by {
        forall i, j | 0 <= i < j < |tail| ensures tail[i].0 != tail[j].0 {
          assert tail[i] == log[i + 1] && tail[j] == log[j + 1];
        }
      }
      FailedSourcesIff(tail);
      forall k | k != log[0].0
        ensures Lookup(log, k) == Lookup(tail, k)
      {
      }
      LookupFinds(tail, log[0].0);
      forall i | 0 <= i < |tail|
        ensures tail[i].0 != log[0].0
      {
        assert tail[i] == log[i + 1];
      }
      assert log[0].0 !in Keys(tail);
    }
  }

  /** The failed sources keep the fetch log's order: the list for two runs
      of entries is the list for the first followed by the list for the
      second. */
  lemma {:induction false} FailedSourcesAppend(a: Entries<FetchStatus>, b: Entries<FetchStatus>)
    ensures FailedSources(a + b) == FailedSources(a) + FailedSources(b)
  {
    if a == [] {
      assert a + b == b;
    } else {
      var head := if a[0].1.status == StatusFailed then [a[0].0] else [];
      FailedSourcesAppend(a[1..], b);
      assert (a + b)[0] == a[0];
      assert (a + b)[1..] == a[1..] + b;
      assert head + (FailedSources(a[1..]) + FailedSources(b))
          == head + FailedSources(a[1..]) + FailedSources(b);
    }
  }

  /** One entry is listed exactly when its status is "failed". */
  lemma FailedSourcesSingle(e: (string, FetchStatus))
    ensures FailedSources([e]) == if e.1.status == StatusFailed then [e.0] else []
  {
    assert [e][1..] == [];
  }

  /** After a source is recorded it is among the failed sources exactly
      when an error was given; the other sources keep their standing. */
  lemma FailedAfterRecord(log: Entries<FetchStatus>, key: string, content: string, error: Option<string>, k: string)
    requires DistinctKeys(log)
    ensures k in FailedSources(Assign(log, key, StatusOf(content, error)))
        <==> (if k == key then !NoError(error) else k in FailedSources(log))
  {
    var status := StatusOf(content, error);
    AssignDistinct(log, key, status);
    FailedSourcesIff(log);
    FailedSourcesIff(Assign(log, key, status));
    AssignLookup(log, key, status, k);
  }

  // ---------------------------------------------------------------------
  // The top three items
  // ---------------------------------------------------------------------

  /** The number of items the run log keeps. */
  const TopCount := 3

  /** One `all_items` entry. */
  datatype LogItem = LogItem(source: string, title: string, score: real, tier: string)

  /** The entry for a curated item, with the defaults of `item.get`. */
  function LogItemOf(p: (string, Item)): (r: LogItem)
    ensures r.source == p.0
    ensures r.title == (if p.1.title.Some? then p.1.title.value else "")
    ensures r.score == (if p.1.score.Some? then p.1.score.value else 0.0)
    ensures r.tier == (if p.1.tier.Some? then p.1.tier.value else "")
  {
    LogItem(p.0, p.1.title.GetOr(""), ScoreOf(p.1), p.1.tier.GetOr(""))
  }

  function LogScore(x: LogItem): real {
    x.score
  }

  /** The entries for the items visited, in visiting order. */
  function LogItems(visited: seq<(string, Item)>): seq<LogItem>
  {
    seq(|visited|, i requires 0 <= i < |visited| => LogItemOf(visited[i]))
  }

  /** Each visited item gives its own entry: the entries for two runs of
      visits are the entries of each run, in order. */
  lemma LogItemsAppend(a: seq<(string, Item)>, b: seq<(string, Item)>)
    ensures LogItems(a + b) == LogItems(a) + LogItems(b)
  {
    assert forall i :: 0 <= i < |a + b| ==> LogItems(a + b)[i] == (LogItems(a) + LogItems(b))[i];
  }

  /** Visiting one more item adds its entry at the end. */
  lemma LogItemsSnoc(before: seq<(string, Item)>, key: string, items: seq<Item>, j: nat)
    requires j < |items|
    ensures LogItems(before + Tagged(key, items[..j + 1]))
         == LogItems(before + Tagged(key, items[..j])) + [LogItemOf((key, items[j]))]
  {
    assert before + Tagged(key, items[..j + 1]) == before + Tagged(key, items[..j]) + [(key, items[j])];
  }

  /** `all_items` sorted by score, highest first, cut to three. */
  function TopItems(curated: Entries<seq<Item>>): (r: seq<LogItem>)
    ensures |r| <= TopCount
  {
    Take(SortDesc(LogItems(Flatten(curated)), LogScore), TopCount)
  }

  /** The nested loop that fills `all_items`. */
  method CollectLogItems(curated: Entries<seq<Item>>) returns (allItems: seq<LogItem>)
    ensures allItems == LogItems(Flatten(curated))
  {
    allItems := [];
    var i := 0;
    while i < |curated|
      invariant 0 <= i <= |curated|
      invariant allItems == LogItems(Flatten(curated[..i]))
    {
      var key := curated[i].0;
      var items := curated[i].1;
      ghost var before := Flatten(curated[..i]);
      assert before + Tagged(key, items[..0]) == before;
      var j := 0;
      while j < |items|
        invariant 0 <= j <= |items|
        invariant allItems == LogItems(before + Tagged(key, items[..j]))
      {
        LogItemsSnoc(before, key, items, j);
        allItems := allItems + [LogItemOf((key, items[j]))];
        j := j + 1;
      }
      assert items[..j] == items;
      assert curated[..i + 1][..i] == curated[..i];
      i := i + 1;
    }
    assert curated[..i] == curated;
  }

  /** The per-run log, less the date, the model name and the file. */
  datatype RunRecord = RunRecord(
    fetch: Entries<FetchStatus>,
    curation: CurationLog,
    topItems: seq<LogItem>,
    failedSources: seq<string>)

  /** `write_log`, up to the JSON dump. */
  method WriteLog(fetchLog: Entries<FetchStatus>, curationLog: CurationLog, curated: Entries<seq<Item>>)
    returns (record: RunRecord)
    ensures record == RunRecord(fetchLog, curationLog, TopItems(curated), FailedSources(fetchLog))
  {
    var allItems := CollectLogItems(curated);
    allItems := SortDesc(allItems, LogScore);
    record := RunRecord(fetchLog, curationLog, Take(allItems, TopCount), FailedSources(fetchLog));
  }

  /** The top items are at most three, and fewer only when fewer items
      were curated; they come in descending score order, are drawn from
      the curated items, score no lower than any item left out, and keep
      the curated order among equal scores. */
  lemma TopItemsFacts(curated: Entries<seq<Item>>)
    ensures var all := LogItems(Flatten(curated));
      var top := TopItems(curated);
      && |top| == (if |all| < TopCount then |all| else TopCount)
      && SortedDesc(top, LogScore)
      && multiset(top) <= multiset(all)
      && (forall x :: x in all && x !in top ==> forall y :: y in top ==> x.score <= y.score)
      && (forall v :: WithKey(top, LogScore, v) <= WithKey(all, LogScore, v))
  {
    var all := LogItems(Flatten(curated));
    var sorted := SortDesc(all, LogScore);
    var top := TopItems(curated);
    assert top == sorted[..|top|];
    SortDescPermutes(all, LogScore);
    SortDescSorted(all, LogScore);
    PrefixSortedDrawn(sorted, |top|, LogScore);
    PrefixIsTop(sorted, |top|, LogScore);
    forall x | x in all
      ensures x in sorted
    {
      assert x in multiset(sorted);
    }
    forall v
      ensures WithKey(top, LogScore, v) <= WithKey(all, LogScore, v)
    {
      SortDescStable(all, LogScore, v);
      WithKeyOfPrefix(sorted, |top|, LogScore, v);
    }
  }

  /** Every top item stands for one curated item of its source. */
  lemma TopItemsFromCurated(curated: Entries<seq<Item>>)
    ensures forall x :: x in TopItems(curated) ==>
              exists i :: 0 <= i < |curated| && curated[i].0 == x.source
                && exists item :: item in curated[i].1 && x == LogItemOf((curated[i].0, item))
  {
    var visited := Flatten(curated);
    var all := LogItems(visited);
    TopItemsFacts(curated);
    FlattenMembers(curated);
    forall x | x in TopItems(curated)
      ensures exists i :: 0 <= i < |curated| && curated[i].0 == x.source
                && exists item :: item in curated[i].1 && x == LogItemOf((curated[i].0, item))
    {
      assert x in multiset(all);
      var k :| 0 <= k < |all| && all[k] == x;
      var p := visited[k];
      assert p in visited;
      var i :| 0 <= i < |curated| && curated[i].0 == p.0 && p.1 in curated[i].1;
      assert x == LogItemOf((curated[i].0, p.1));
    }
  }
}

=== FILE: text.dfy ===
/** The handful of Python `str` operations the digest relies on:
    `strip`, `startswith`, prefix slicing, `split("\n")` and `"\n".join`. */
module Text {

  /** Python's `str.isspace()` for one code point; also what `\s` matches
      in a `str` regular expression. */
  predicate IsSpace(c: char) {
    var n := c as int;
    (9 <= n <= 13) || (28 <= n <= 32) || n == 0x85 || n == 0xA0 || n == 0x1680
    || (0x2000 <= n <= 0x200A) || n == 0x2028 || n == 0x2029 || n == 0x202F
    || n == 0x205F || n == 0x3000
  }

  /** `s.lstrip()`: drops the leading whitespace and nothing else. */
  function TrimLeft(s: string): (r: string)
    ensures |r| <= |s|
    ensures r != [] ==> !IsSpace(r[0])
    ensures forall i :: 0 <= i < |s| - |r| ==> IsSpace(s[i])
  {
    if s != [] && IsSpace(s[0]) then TrimLeft(s[1..]) else s
  }

  /** `s.rstrip()`: drops the trailing whitespace and nothing else. */
  function TrimRight(s: string): (r: string)
    ensures |r| <= |s|
    ensures r != [] ==> !IsSpace(r[|r| - 1])
    ensures forall i :: |r| <= i < |s| ==> IsSpace(s[i])
  {
    if s != [] && IsSpace(s[|s| - 1]) then TrimRight(s[..|s| - 1]) else s
  }

  /** What `lstrip` leaves is a suffix of its input. Kept out of
      `TrimLeft`'s own contract: as an ensures, it makes every text equal
      to its own strip a source of ever new slices for the solver. */
  lemma {:induction false} TrimLeftSuffix(s: string)
    ensures TrimLeft(s) == s[|s| - |TrimLeft(s)|..]
  {
    if s != [] && IsSpace(s[0]) {
      TrimLeftSuffix(s[1..]);
    }
  }

  /** What `rstrip` leaves is a prefix of its input. */
  lemma {:induction false} TrimRightPrefix(s: string)
    ensures TrimRight(s) == s[..|TrimRight(s)|]
  {
    if s != [] && IsSpace(s[|s| - 1]) {
      TrimRightPrefix(s[..|s| - 1]);
    }
  }

  predicate Stripped(s: string) {
    s == [] || (!IsSpace(s[0]) && !IsSpace(s[|s| - 1]))
  }

  /** `s.strip()`. */
  function Strip(s: string): (r: string)
    ensures Stripped(r)
  {
    var l := TrimLeft(s);
    TrimLeftSuffix(s);
    TrimRightPrefix(l);
    TrimRight(l)
  }

  /** `s[a:b]` is what is left once the whitespace before `a` and from
      `b` on is cut away. */
  predicate StrippedAt(s: string, a: int, b: int) {
    && 0 <= a <= b <= |s|
    && (forall i :: 0 <= i < a ==> IsSpace(s[i]))
    && (forall i :: b <= i < |s| ==> IsSpace(s[i]))
  }

  /** Stripping only removes characters from the ends, removes only
      whitespace, leaves stripped text alone and empties exactly the
      all-whitespace texts. */
  lemma StripFacts(s: string)
    ensures var r := Strip(s);
      && |r| <= |s|
      && (exists a, b :: StrippedAt(s, a, b) && r == s[a..b])
      && (forall c :: c in r ==> c in s)
      && (Stripped(s) ==> r == s)
      && (r == [] <==> forall i :: 0 <= i < |s| ==> IsSpace(s[i]))
  {
    var l := TrimLeft(s);
    var r := TrimRight(l);
    TrimLeftSuffix(s);
    TrimRightPrefix(l);
    var a := |s| - |l|;
    var b := a + |r|;
    assert r == s[a..b];
    forall i | b <= i < |s|
      ensures IsSpace(s[i])
    {
      assert s[i] == l[i - a];
    }
    assert StrippedAt(s, a, b);
    assert forall c :: c in r ==> c in l;
    assert forall c :: c in l ==> c in s;
  }

  /** Stripped text is left alone. */
  lemma StripStripped(s: string)
    requires Stripped(s)
    ensures Strip(s) == s
  {
    StripFacts(s);
  }

  /** Stripping adds no character. */
  lemma StripKeepsOut(s: string, c: char)
    requires c !in s
    ensures c !in Strip(s)
  {
    StripFacts(s);
  }

  /** A non-empty sequence is its front and its last element. */
  lemma SplitLast<T>(s: seq<T>, rest: seq<T>)
    requires s != []
    ensures s == s[..|s| - 1] + [s[|s| - 1]]
    ensures s[..|s| - 1] + ([s[|s| - 1]] + rest) == s + rest
  {
    assert s == s[..|s| - 1] + [s[|s| - 1]];
  }

  predicate StartsWith(s: string, prefix: string) {
    |prefix| <= |s| && s[..|prefix|] == prefix
  }

  predicate EndsWith(s: string, suffix: string) {
    |suffix| <= |s| && s[|s| - |suffix|..] == suffix
  }

  /** `s[:n]` for a non-negative `n`. */
  function Take<T>(s: seq<T>, n: nat): (r: seq<T>)
    ensures |r| == if n <= |s| then n else |s|
    ensures r == s[..|r|]
  {
    if n <= |s| then s[..n] else s
  }

  /** `s[:n]` for any integer `n`: a negative bound counts from the end. */
  function PyPrefix<T>(s: seq<T>, n: int): (r: seq<T>)
    ensures n >= 0 ==> r == Take(s, n)
    ensures n < 0 ==> |r| == if |s| + n < 0 then 0 else |s| + n
    ensures r == s[..|r|]
  {
    if n >= 0 then Take(s, n)
    else if |s| + n < 0 then []
    else s[..|s| + n]
  }

  /** `s.split("\n")`: always at least one piece, and no piece holds a newline. */
  function SplitLines(s: string): (r: seq<string>)
    ensures |r| >= 1
    ensures forall i :: 0 <= i < |r| ==> '\n' !in r[i]
  {
    if s == [] then [""]
    else
      var rest := SplitLines(s[1..]);
      if s[0] == '\n' then [""] + rest
      else [[s[0]] + rest[0]] + rest[1..]
  }

  /** `"\n".join(xs)`. */
  function JoinLines(xs: seq<string>): string {
    if xs == [] then ""
    else if |xs| == 1 then xs[0]
    else xs[0] + "\n" + JoinLines(xs[1..])
  }

  lemma {:induction false} JoinLinesConsHead(c: char, first: string, rest: seq<string>)
    ensures JoinLines([[c] + first] + rest) == [c] + JoinLines([first] + rest)
  {
    if rest == [] {
    } else {
      assert ([[c] + first] + rest)[1..] == rest;
      assert ([first] + rest)[1..] == rest;
    }
  }

  /** Joining the pieces of a split gives the text back. */
  lemma {:induction false} JoinSplitLines(s: string)
    ensures JoinLines(SplitLines(s)) == s
  {
    if s != [] {
      var rest := SplitLines(s[1..]);
      JoinSplitLines(s[1..]);
      if s[0] == '\n' {
        assert ([""] + rest)[1..] == rest;
      } else {
        assert [rest[0]] + rest[1..] == rest;
        JoinLinesConsHead(s[0], rest[0], rest[1..]);
      }
    }
  }

  lemma {:induction false} SplitLinesNoNewline(a: string)
    requires '\n' !in a
    ensures SplitLines(a) == [a]
  {
    if a != [] {
      assert a[0] in a;
      SplitLinesNoNewline(a[1..]);
      assert [a[0]] + a[1..] == a;
    }
  }

  lemma {:induction false} SplitLinesAfterLine(a: string, b: string)
    requires '\n' !in a
    ensures SplitLines(a + "\n" + b) == [a] + SplitLines(b)
  {
    if a == [] {
      assert a + "\n" + b == "\n" + b;
      assert ("\n" + b)[1..] == b;
    } else {
      assert (a + "\n" + b)[1..] == a[1..] + "\n" + b;
      SplitLinesAfterLine(a[1..], b);
      assert [a[0]] + a[1..] == a;
    }
  }

  /** Splitting a join of newline-free lines gives the lines back. */
  lemma {:induction false} SplitJoinLines(xs: seq<string>)
    requires |xs| >= 1
    requires forall i :: 0 <= i < |xs| ==> '\n' !in xs[i]
    ensures SplitLines(JoinLines(xs)) == xs
  {
    if |xs| == 1 {
      SplitLinesNoNewline(xs[0]);
    } else {
      SplitJoinLines(xs[1..]);
      SplitLinesAfterLine(xs[0], JoinLines(xs[1..]));
      assert [xs[0]] + xs[1..] == xs;
    }
  }
}

=== FILE: wrappers.dfy ===
/** Optional values and results: a JSON field that may be absent, and a
    Python call that either returns or raises. */
module Wrappers {

  datatype Option<+T> = None | Some(value: T) {
    /** `d.get(key, default)` for a field that may be missing. */
    function GetOr(default: T): T {
      match this
      case Some(v) => v
      case None => default
    }
  }

  datatype Result<+T, +E> = Ok(value: T) | Err(error: E)
}
